=== FILE: README.md ===
# Payment ledger of the EGback server, in Dafny

This project models the payment core of the EGback Express server. Users
deposit and withdraw money through the OxaPay gateway. Each user has one
balance in US dollars. Every deposit and withdrawal leaves a transaction
record.

The model covers these parts:

- the deposit flow: create an invoice, poll its status, and the gateway's
  webhook, which credits the balance;
- the withdrawal flow: hold the amount, request the payout, refund on
  failure, and poll the payout's status (a rejection refunds);
- the OxaPay service wrapper: key checks, the `code == 100` rule, error
  classification, request bodies, the currency map and the network table;
- the JWT middleware's Bearer-header parsing and its answers;
- the payments router: the webhook is exempt from authentication, the
  balance and history endpoints are defined there, and so is pagination;
- the CORS allow-list.

Every handler is a pure step function `State -> Step(State, Response)`. A
`State` holds the balances (`map<UserId, real>`) and the transaction
records (`seq<Tx>`). A record's id is its position: records are created in
that order, and `findOne` meets them in that order. Several things outside
the server become parameters of a step:

- the gateway: for the create calls, a function from the request the
  controller sends to the outcome; for the status calls, the outcome (a
  reply body or a thrown error);
- the middleware's token verifier;
- the fresh order id;
- whether saving a new withdrawal record throws.

Money is an exact `real`.

Modules, one per source component:

| module | file | models |
|---|---|---|
| `Common` | common.dfy | JavaScript truthiness and `||`, `toUpperCase`, `Option`/`Result`, the process environment |
| `TransactionSchema` | transaction.dfy | the `Transaction` model: enums, required paths, default status |
| `Http` | http.dfy | responses: status codes, error reasons, payloads |
| `Ledger` | ledger.dfy | the shared state, `findOne`, saves, balance updates, the money invariant |
| `OxapayService` | oxapay.dfy | `oxapay.service.js` |
| `DepositController` | deposit.dfy | `deposit.controller.js` |
| `WebhookController` | webhook.dfy | `webhook.controller.js` |
| `WithdrawController` | withdraw.dfy | `withdraw.controller.js` |
| `AuthMiddleware` | auth.dfy | `authMiddleware.js` |
| `PaymentRoutes` | payments.dfy | `routes/payments.js` |
| `CorsPolicy` | cors.dfy | `config/cors.js` |
| `LedgerProperties` | properties.dfy | properties of request sequences, redeliveries and repeated polls |
| `KnownGaps` | gaps.dfy | concrete runs that exhibit the handlers' gaps |

The handlers are modelled as written, gaps included. `KnownGaps` states
each gap as a lemma about a small concrete ledger:

- A poll that already sees "Paid" marks the deposit `paid` but credits
  nothing. The webhook that follows then refuses to credit it, so the money
  never arrives.
- An "Expired" or "Failed" webhook overwrites a `paid` record. A later
  "Paid" then credits the same deposit twice.
- The webhook credits whatever record it finds, a withdrawal included.
- When no webhook secret is configured, a delivery without the header is
  accepted.
- The withdrawal poll never checks the record's type. Polling a pending
  deposit's id, with a "Failed" answer, refunds money that was never held.
- A payout the gateway has accepted is refunded when saving its record
  fails, although the money has already left.

The invariants that do hold are proved:

- No step makes a balance negative.
- A refund restores the held amount exactly.
- A redelivered webhook has no further effect.
- Polls change nothing once a deposit is paid or completed, or a
  withdrawal is completed or rejected.
- Any sequence of withdrawal polls refunds at most once.

## Model

| member | source | states |
|---|---|---|
| `Common.ToUpper` | payement/deposit.controller.js:20-24 | upper-casing keeps the length and upper-cases each character: ASCII lower-case letters, the long s and the dotless i become capitals, every other character is kept |
| `Common.UpperChar` | payement/deposit.controller.js:20-24 | a lower-case ASCII letter becomes its capital, the long s becomes S and the dotless i becomes I; nothing else changes |
| `Common.Digits` | payement/oxapay.service.js:74 | a status code prints as decimal digits without a leading zero that denote the number itself |
| `Common.Utf16Length` | payement/withdraw.controller.js:10-14 | a string's JavaScript length lies between its number of characters and twice that, and equals the number of characters exactly when no character lies outside the Basic Multilingual Plane |
| `TransactionSchema.ParseKind` | models/Transaction.js:9-13 | a `type` is accepted exactly when it is "deposit" or "withdraw", and names that kind |
| `TransactionSchema.ParseAsset` | models/Transaction.js:14-18 | a `crypto` is accepted exactly when it is one of the five upper-case asset names, and names that asset |
| `TransactionSchema.ParseStatus` | models/Transaction.js:32-36 | a `status` is accepted exactly when it is one of the six lower-case status names |
| `TransactionSchema.AssetOfRequest` | payement/deposit.controller.js:19-24 | a request names an asset exactly when its `crypto` is non-empty and upper-cases to one of the five names |
| `TransactionSchema.LongSNamesUsdt` | payement/deposit.controller.js:19-24 | "uſdt" upper-cases to USDT and is accepted as that asset |
| `TransactionSchema.Validate` | models/Transaction.js:3-48 | a save fails exactly when a required path is missing or an enum path is out of range, reporting those paths; otherwise the record carries the given fields, with status `pending` by default |
| `TransactionSchema.ValidateDraftOf` | models/Transaction.js:3-48 | every record the model can hold passes the schema unchanged |
| `TransactionSchema.DefaultStatusIsPending` | models/Transaction.js:32-36 | a record saved without a status is `pending` |
| `Ledger.FindFirst` | payement/deposit.controller.js:108-111 | the lookup returns the first record, in creation order, that matches, or none when no record matches |
| `Ledger.Credit` | payement/webhook.controller.js:50-51 | adding to one balance changes that balance by the amount and no other balance or record |
| `OxapayService.HandleError` | payement/oxapay.service.js:58-84 | status 401 is an invalid key, 403 an access refusal, 422 invalid data carrying the reply's data; any other status is reported with that status and the reply's message, or else the error's own message; a request without reply is "unreachable"; any other error is a configuration error carrying its message |
| `OxapayService.ErrorText` | payement/oxapay.service.js:67-82 | the message of invalid data starts with its fixed prefix and ends with the data; a remote error's starts with "Erreur OxaPay ", the status code and ": ", and ends with its detail; a configuration error's starts with "Erreur de configuration: " and ends with its detail; each of these three is exactly as long as its parts, so nothing lies between them; every other error has its own fixed, non-empty message |
| `OxapayService.StatusText` | payement/oxapay.service.js:74 | a status code prints as its decimal digits, after a minus sign when negative; the digits are non-empty, have no leading zero unless the code is 0, and read back as the code |
| `OxapayService.FixedText` | payement/oxapay.service.js:40-82 | the two missing-key errors, the invalid key, the access refusal and the unreachable gateway each have a non-empty message, and the errors that carry a detail have none here |
| `OxapayService.FixedTextsDistinct` | payement/oxapay.service.js:40-82 | no two errors without a detail share a message |
| `OxapayService.Detailed` | payement/oxapay.service.js:72-82 | a message built from a prefix and a detail starts with the prefix, ends with the detail and is exactly as long as both |
| `OxapayService.RemoteDetail` | payement/oxapay.service.js:74 | a remote error's message opens with the fixed prefix, then the status code and a colon, and closes with the detail |
| `OxapayService.RejectionMessage` | payement/oxapay.service.js:145-149 | a rejected reply's message is its own truthy `message`; without one, the status calls and replies without a truthy `result` report the generic "Erreur OxaPay"; the creating calls fall back to the text of a truthy `result`; the message is never empty |
| `OxapayService.Call` | payement/oxapay.service.js:97-157 | a call succeeds exactly when both keys are configured and the reply carries code 100, and then yields the reply; a missing merchant key is reported before a missing payout key, and both before the network |
| `OxapayService.RejectedReplyIsConfigurationError` | payement/oxapay.service.js:145-156 | a reply whose code is not 100 always surfaces as a configuration error carrying the reply's message |
| `OxapayService.InvoiceCallNeedsPayoutKey` | payement/oxapay.service.js:40-53 | the invoice calls fail without the payout key, although they never send it |
| `OxapayService.GatewayCurrency` | payement/oxapay.service.js:28-34 | the currency sent is always a supported one: the requested name when supported, USDT otherwise |
| `OxapayService.Network` | payement/oxapay.service.js:306-315 | the payout network is always one of trc20, btc, erc20, bep20 |
| `OxapayService.NetworkTable` | payement/oxapay.service.js:306-315 | TRX and USDT go on TRC-20, BTC on btc, ETH on ERC-20, BNB on BEP-20, and any other name on TRC-20 |
| `OxapayService.InvoiceRequestFor` | payement/oxapay.service.js:111-128 | the invoice body carries the amount and order id; currency, lifetime and callback URL fall back to USD, 900 seconds and the configured webhook URL; the fee flag is 1 for true and 0 for false; a truthy `to_currency` or description appears as given, and an optional member appears only when given |
| `OxapayService.DepositInvoiceDefaults` | payement/oxapay.service.js:111-117 | the deposit invoice is in dollars, lasts fifteen minutes, pays in a supported currency and calls back the configured URL |
| `OxapayService.PayoutRequestFor` | payement/oxapay.service.js:222-235 | the payout body carries amount and address, a supported currency, and the asset's network unless one is given; a truthy description appears as given, and only then |
| `OxapayService.PayoutFallback` | payement/oxapay.service.js:222-226 | an unknown asset is paid out as USDT on TRC-20 |
| `DepositController.Normalize` | payement/deposit.controller.js:51-55 | each invoice field comes from one of the places the reply may carry it, and a pay address exists exactly when one of its three places has one |
| `DepositController.NormalizeFirstPresent` | payement/deposit.controller.js:51-55 | each invoice field is taken from the first truthy of the nested, top-level and fallback members (the expiry from the nested member, else the top-level one); a pay address exists exactly when one of its three sources has one |
| `DepositController.CheckRequest` | payement/deposit.controller.js:13-32 | a deposit request passes exactly when the amount is positive, the crypto is supported and the amount is at least 0.5; otherwise it fails with the first failing check's reason |
| `DepositController.InvoiceSent` | payement/deposit.controller.js:34-42 | an accepted deposit asks the gateway for the requested amount, in the requested asset, under the generated order id, in dollars for fifteen minutes with the configured callback |
| `DepositController.DepositRecord` | payement/deposit.controller.js:64-75 | the record a new deposit saves always passes the schema, as a pending deposit of the requested amount and asset with the returned address, pay amount and invoice id |
| `DepositController.CreateDeposit` | payement/deposit.controller.js:8-96 | creation never changes a balance; it answers 200 exactly when the request passes, the gateway accepts the request the controller sends and the reply holds a pay address, and then it appends the pending deposit of the requested amount and asset whose address, crypto amount and invoice id are those of the normalised reply, and answers with that invoice id, pay address and crypto amount, the requested asset, the payment URL and the expiry; a gateway error or a missing pay address is a 500 with its message; on every other answer nothing changes |
| `DepositController.ValidationPrecedesGateway` | payement/deposit.controller.js:13-42 | a rejected request gets the same 400 answer whatever the configuration, order id or gateway outcome |
| `DepositController.FindOwnedInvoice` | payement/deposit.controller.js:107-115 | the poll only finds the caller's own record under that invoice id, and finds none when there is none |
| `DepositController.InvoiceTransition` | payement/deposit.controller.js:135-142 | "Paid" and "Completed" mean `paid`, "Expired" and "Failed" their own statuses, and any other answer keeps the stored status |
| `DepositController.CheckDepositStatus` | payement/deposit.controller.js:99-178 | a poll never changes a balance; an empty id is a 400, an unknown or foreign invoice a 404; a settled record or a failed gateway call leaves everything as it was; otherwise only the record's status moves, per the transition table |
| `WebhookController.Authorized` | payement/webhook.controller.js:10-20 | a delivery is authorised exactly when its header equals the configured secret, so a missing header passes exactly when no secret is configured |
| `WebhookController.Apply` | payement/webhook.controller.js:38-65 | a confirmation credits the owner the stored fiat amount and marks the record paid when it credits the record, and changes nothing otherwise; "Expired" and "Failed" only overwrite the status; any other status changes nothing |
| `WebhookController.FindTarget` | payement/webhook.controller.js:28-31 | the webhook acts on the first record whose invoice id equals the body's `order_id` or `invoice_id`, whatever its owner or type |
| `WebhookController.Confirmed` | payement/webhook.controller.js:44-46 | a confirmed record is `paid`, keeps its identity, and takes the delivered amount as its crypto amount when that amount is truthy |
| `WebhookController.HandleWebhook` | payement/webhook.controller.js:4-73 | a wrong secret gets 403 and changes nothing; any authorised delivery gets 200; no record is added or re-identified; no balance goes negative |
| `WebhookController.ConfirmationCredits` | payement/webhook.controller.js:38-54 | "Paid" or "Completed" for an unconfirmed record with an existing owner marks it paid and credits the owner the record's stored fiat amount, and changes nothing else |
| `WebhookController.ConfirmationOfSettledIsNoop` | payement/webhook.controller.js:38-54 | a confirmation for a record already `paid` or `completed`, or whose owner is gone, changes nothing |
| `WebhookController.ExpiryOverwrites` | payement/webhook.controller.js:55-65 | "Expired" and "Failed" overwrite any stored status and never touch a balance |
| `WebhookController.UnknownStatusIsNoop` | payement/webhook.controller.js:38-67 | any other status string changes nothing |
| `WebhookController.RedeliveryIsIdempotent` | payement/webhook.controller.js:38-65 | delivering the same webhook twice has the effect of delivering it once |
| `WebhookController.SameTargetAfterApply` | payement/webhook.controller.js:28-31 | a delivery never changes which record a later lookup finds |
| `WithdrawController.AddressValid` | payement/withdraw.controller.js:9-15 | an accepted address is 26 to 62 UTF-16 code units long; a TRX or USDT one is 34 code units starting with T, an ETH or BNB one 42 code units starting with 0x |
| `WithdrawController.AstralCharacterCountsTwice` | payement/withdraw.controller.js:10 | a 34-character TRX address ending in an astral character is 35 code units long and is refused |
| `WithdrawController.AddressRules` | payement/withdraw.controller.js:9-15 | TRX and USDT addresses are 34 UTF-16 code units starting with T; ETH and BNB are 42 starting with 0x; BTC is 26 to 62 starting with 1, 3 or bc1 |
| `WithdrawController.CheckRequest` | payement/withdraw.controller.js:22-50 | a withdrawal request passes exactly when the amount is positive, the crypto is supported, the address is present and well-formed for the asset, and the amount is at least 0.5; otherwise the first failing check's reason, the minimum last |
| `WithdrawController.Hold` | payement/withdraw.controller.js:59-68 | a covered hold lowers only the caller's balance, by the amount, and never below zero |
| `WithdrawController.Refund` | payement/withdraw.controller.js:105-108 | a refund raises only the caller's balance, by the amount, and touches no record |
| `WithdrawController.RefundUndoesHold` | payement/withdraw.controller.js:105-108 | refunding a hold restores the ledger exactly |
| `WithdrawController.WithdrawalRecord` | payement/withdraw.controller.js:79-88 | the record a new withdrawal saves always passes the schema, as a pending withdrawal of the requested amount, asset and address with the payout's id and hash |
| `WithdrawController.PayoutSent` | payement/withdraw.controller.js:70-76 | an accepted, covered withdrawal asks the gateway to pay the requested amount to the requested address, in the requested asset on that asset's network |
| `WithdrawController.CreateWithdrawal` | payement/withdraw.controller.js:17-117 | a withdrawal answers 200 exactly when the request passes, the caller exists and is covered, the gateway accepts the payout request the controller sends and the record saves; then the balance is lower by the amount and one pending withdrawal with the payout's id and hash is appended; a gateway error or a failed save is a 500 with its message; every other answer leaves the ledger as it was, the hold refunded |
| `WithdrawController.PayoutTransition` | payement/withdraw.controller.js:157-171 | "Completed" and "Success" mean `completed`, "Rejected" and "Failed" mean `rejected`, and any other answer keeps the stored status |
| `WithdrawController.CheckWithdrawalStatus` | payement/withdraw.controller.js:120-218 | only the caller's own record is found; a completed or rejected record, one without payout id, or a failed call changes nothing; otherwise the status moves per the table, and the owner is refunded exactly when a rejection meets a pending record |
| `AuthMiddleware.Split` | middleware/authMiddleware.js:19 | splitting on a space gives at least one piece, none containing a space, and a single piece exactly when the header has no space |
| `AuthMiddleware.JoinSplit` | middleware/authMiddleware.js:19 | the pieces joined with the separator give the header back |
| `AuthMiddleware.SplitTwo` | middleware/authMiddleware.js:19-20 | a header with exactly one space splits into the text before it and the text after it |
| `AuthMiddleware.BearerToken` | middleware/authMiddleware.js:19-25 | a token is found only in a header that is "Bearer " followed by that token, which holds no space; a header without a space yields none |
| `AuthMiddleware.BearerTokenShape` | middleware/authMiddleware.js:19-25 | a header is well formed exactly when it is "Bearer ", then a token without a space, and the token is that remainder |
| `AuthMiddleware.Authenticate` | middleware/authMiddleware.js:3-57 | without a JWT secret every request gets 500; a missing header or malformed one gets 401; an empty token, a token without an id, a rejected token and any other verification error each get their own 401 reason; the request passes exactly when the token is non-empty, verifies, and carries a truthy id, and then the caller is that id; every other outcome is a 401 |
| `AuthMiddleware.EmptyTokenRefused` | middleware/authMiddleware.js:25-29 | "Bearer " with nothing after it is refused as a missing token |
| `AuthMiddleware.BearerHeaderAdmits` | middleware/authMiddleware.js:19-47 | a well-formed header whose token verifies with an id admits exactly that user |
| `AuthMiddleware.ExpiryIgnored` | middleware/authMiddleware.js:33-35 | an expired token is treated like a current one |
| `CorsPolicy.CheckOrigin` | config/cors.js:3-19 | a request is allowed exactly when it has no origin or its origin is on the list; otherwise it is refused with "Not allowed by CORS" |
| `CorsPolicy.AbsentOriginAllowed` | config/cors.js:14 | requests without an origin are always allowed |
| `CorsPolicy.AllowListExact` | config/cors.js:5-14 | the seven listed origins are distinct and matched exactly: a trailing slash, another scheme or another port is refused |
| `PaymentRoutes.Balance` | routes/payments.js:34-54 | an existing caller gets their balance in USD; a missing one gets 404 |
| `PaymentRoutes.NewestFirst` | routes/payments.js:62-74 | the history holds every one of the caller's records of the requested type, only those, newest first |
| `PaymentRoutes.Pages` | routes/payments.js:83 | the page count is the ceiling of total over limit (at least enough pages to hold every row, and fewer than one page too many), null for a zero limit, and for a negative limit the ceiling of total over that negative limit |
| `PaymentRoutes.Window` | routes/payments.js:69-72 | a page is the consecutive run of rows after the skipped ones, at most `limit` long, and exactly as long as the magnitude of a negative limit allows, all of them for a zero limit, empty past the end |
| `PaymentRoutes.History` | routes/payments.js:59-91 | a negative skip is an error; otherwise the page reports the total, the page number, the page count, and the window of the newest-first rows |
| `PaymentRoutes.DefaultHistoryPage` | routes/payments.js:62 | by default the answer is page 1 with the twenty newest matching records, or all of them when there are fewer |
| `PaymentRoutes.Dispatch` | routes/payments.js:10-29 | the webhook is served without authentication; every other route is answered by the middleware, with nothing changed, when it refuses, and otherwise served by its handler as the user the token decoded to; no request removes a record or a user, or makes a balance negative |
| `PaymentRoutes.Route` | routes/payments.js:18-29 | every authenticated route keeps the set of users and every existing record's identity, and keeps balances non-negative |
| `LedgerProperties.BalanceShowsConfirmation` | routes/payments.js:34-54 | after a crediting confirmation, the balance route reports the owner's old balance plus the record's fiat amount |
| `LedgerProperties.AdmittedRequestTouchesOnlyCaller` | middleware/authMiddleware.js:37-47 | an admitted request changes no balance but that of the user the token decoded to |
| `LedgerProperties.Run` | routes/payments.js:10-29 | after any sequence of requests no record or user has been removed or re-identified, and no balance has become negative |
| `LedgerProperties.UnauthenticatedRunChangesNothing` | middleware/authMiddleware.js:11-16 | requests to authenticated routes without an Authorization header change nothing, however many there are |
| `LedgerProperties.RedeliveriesActOnce` | payement/webhook.controller.js:38-65 | however often a webhook is redelivered, the ledger ends as after the first delivery |
| `LedgerProperties.PollDeposit` | payement/deposit.controller.js:130-149 | no sequence of deposit polls changes any balance |
| `LedgerProperties.SettledDepositPollsChangeNothing` | payement/deposit.controller.js:117-128 | once the polled deposit is `paid` or `completed`, further polls change nothing |
| `LedgerProperties.PollWithdrawal` | payement/withdraw.controller.js:151-178 | no sequence of withdrawal polls adds a record or changes one's identity |
| `LedgerProperties.ClosedWithdrawalPollsChangeNothing` | payement/withdraw.controller.js:138-149 | once the polled withdrawal is `completed` or `rejected`, further polls change nothing |
| `LedgerProperties.RefundAtMostOnce` | payement/withdraw.controller.js:160-171 | after any number of polls, either no balance changed, or the record went from `pending` to `rejected` and its owner got back exactly its amount |
| `KnownGaps.WebhookAloneCredits` | payement/webhook.controller.js:38-54 | a confirming webhook on a fresh pending deposit credits its amount |
| `KnownGaps.PollBeforeWebhookLosesCredit` | payement/deposit.controller.js:135-149 | a poll that sees "Paid" marks the deposit paid without crediting, and the webhook that follows credits nothing |
| `KnownGaps.ExpiryReopensPaidDeposit` | payement/webhook.controller.js:55-59 | Paid, Expired, Paid credits the same deposit twice |
| `KnownGaps.WebhookCreditsWithdrawal` | payement/webhook.controller.js:38-54 | a "Paid" webhook that names a pending withdrawal credits the withdrawn amount |
| `KnownGaps.MissingSecretAdmitsAnyone` | payement/webhook.controller.js:15 | with no secret configured, a delivery without the header is authorised and credits |
| `KnownGaps.WithdrawalPollRefundsDeposit` | payement/withdraw.controller.js:160-170 | a withdrawal poll on a pending deposit answered "Failed" refunds money that was never held |
| `KnownGaps.FailedSaveRefundsSentPayout` | payement/withdraw.controller.js:69-111 | a payout the gateway accepted is refunded all the same when saving its record fails, so the caller keeps the money that has left |

## Left out

- Logging, the Express request and response objects, response messages'
  exact JSON shape, and the `success` flags. Responses are a status code
  and a typed payload.
- The HTTP client, its 30-second timeout and the gateway URLs. Each call's
  outcome is a parameter: a reply body or a thrown error.
- Persistence. The store is modelled as a map and a sequence, and every
  save succeeds, except the save of a new withdrawal record, whose failure
  is a parameter because the source refunds on it. A failing user save, a
  failing record save in the other handlers, and the webhook's generic 500
  are not modelled.
- Concurrency. Each handler is one atomic step. Interleavings of two
  requests, such as two withdrawals racing past the balance check, are not
  modelled.
- Floating point. Money is an exact `real`, and `toFixed(2)` in request
  bodies and error messages is not modelled.
- `uuid`, `Date`, `createdAt` and `updatedAt`. The order id is a
  parameter. "Newest first" is creation order, so ties between equal
  timestamps are not modelled.
- `jwt.verify`. Its result is a parameter: the decoded id, or which error it
  throws.
- `parseInt` of the history query. `limit` and `page` arrive parsed, and
  `NaN` is not modelled. A negative skip is reported with an internal
  message whose wording is the database's.
- Common.ToUpper: upper-cases ASCII letters, the long s ('ſ' to 'S') and
  the dotless i ('ı' to 'I'), and keeps every other character. JavaScript's
  full Unicode table, including the characters that expand to several
  letters, is not modelled. No such expansion spells one of the five asset
  names. `TransactionSchema.AssetOfRequest` and both `CheckRequest`s inherit
  this restriction.
- Request bodies of the wrong JSON type. For example, a string `amount`
  would make the refund's `+=` concatenate. Amounts are numbers or absent.
- Malformed record ids. A malformed id makes the withdrawal lookup throw a
  cast error, which gives a 500. Ids are positions, so the 400 for a
  missing id cannot arise.
- `CRYPTO_MAP` and `_getNetwork` lookups of prototype keys such as
  `constructor`. Those names are treated like any other unknown name.
- WebhookController.FindTarget: a body without `order_id` or `invoice_id`
  is modelled as matching no record through that key. How the database
  treats an undefined filter value is not modelled.
- The routes in `routes/auth.js`, `routes/depot.js` and
  `server/routes/depot.js`, the `server.js` bootstrap (which does not
  mount the payments router), the database connection and the
  configuration loader are not part of this model.

=== FILE: auth.dfy ===
/** The authentication middleware: the configuration check, Bearer-header
    parsing, token verification (a parameter) and the choice between
    answering the request and passing it on with the caller's id. */
module AuthMiddleware {
  import opened Common
  import opened TransactionSchema
  import opened Http

  /** `String.prototype.split` with a one-character separator: the pieces
      between separators, empty ones included. */
  function Split(s: string, c: char): (parts: seq<string>)
    ensures |parts| >= 1
    ensures forall k :: 0 <= k < |parts| ==> c !in parts[k]
    ensures |parts| == 1 <==> c !in s
    decreases |s|
  {
    if |s| == 0 then [""]
    else
      var rest := Split(s[1..], c);
      if s[0] == c then [""] + rest
      else [[s[0]] + rest[0]] + rest[1..]
  }

  /** `parts.join(c)`. */
  function Join(parts: seq<string>, c: char): string
    requires |parts| >= 1
    decreases |parts|
  {
    if |parts| == 1 then parts[0] else parts[0] + [c] + Join(parts[1..], c)
  }

  /** Splitting loses nothing: joining the pieces gives the input back. */
  lemma {:induction false} JoinSplit(s: string, c: char)
    ensures Join(Split(s, c), c) == s
    decreases |s|
  {
    if |s| > 0 {
      var rest := Split(s[1..], c);
      JoinSplit(s[1..], c);
      if s[0] == c {
        assert Split(s, c)[1..] == rest;
      } else {
        var parts := Split(s, c);
        if |rest| == 1 {
          assert parts == [[s[0]] + rest[0]];
        } else {
          assert parts[1..] == rest[1..];
          assert Join(rest, c) == rest[0] + [c] + Join(rest[1..], c);
        }
      }
    }
  }

  /** A string splits into exactly two pieces when it holds exactly one
      separator, and the pieces are what surrounds it. */
  lemma {:induction false} SplitTwo(a: string, b: string, c: char)
    requires c !in a && c !in b
    ensures Split(a + [c] + b, c) == [a, b]
    decreases |a|
  {
    if |a| == 0 {
      assert a + [c] + b == [c] + b;
      assert (a + [c] + b)[1..] == b;
      JoinSplit(b, c);
    } else {
      assert (a + [c] + b)[1..] == a[1..] + [c] + b;
      SplitTwo(a[1..], b, c);
      assert [a[0]] + a[1..] == a;
    }
  }

  /** What `jwt.verify` (with expiry ignored) yields for a token: its
      claims, or the kind of error it throws. */
  datatype Verification =
    | Decoded(id: Option<string>, expired: bool)
    | JsonWebTokenError
    | OtherVerifyError

  /** Either the request is answered here, or `next()` is called once with
      `req.user = { id }`. */
  datatype AuthOutcome = Respond(response: Response) | Next(userId: UserId)

  /** The token of a well-formed header: the second of exactly two pieces
      whose first is "Bearer". */
  function BearerToken(header: string): (r: Option<string>)
    ensures r.Some? ==> ' ' !in r.value && header == "Bearer " + r.value
    ensures ' ' !in header ==> r.None?
  {
    var parts := Split(header, ' ');
    if |parts| != 2 || parts[0] != "Bearer" then None
    else
      JoinSplit(header, ' ');
      assert Join(parts, ' ') == parts[0] + [' '] + parts[1];
      Some(parts[1])
  }

  /** A header is well formed exactly when it is "Bearer ", then a token
      holding no space. */
  lemma BearerTokenShape(header: string)
    ensures BearerToken(header).Some? <==>
              exists tok :: ' ' !in tok && header == "Bearer " + tok
    ensures BearerToken(header).Some? ==> header == "Bearer " + BearerToken(header).value
  {
    if exists tok :: ' ' !in tok && header == "Bearer " + tok {
      var tok :| ' ' !in tok && header == "Bearer " + tok;
      assert header == "Bearer" + [' '] + tok;
      SplitTwo("Bearer", tok, ' ');
    }
  }

  /** The middleware. `verify` is `jwt.verify` under the configured secret. */
  function Authenticate(env: Env, header: Option<string>, verify: string -> Verification): (r: AuthOutcome)
    ensures !Truthy(env.jwtSecret) ==> r == Respond(Reject(500, ServerMisconfigured))
    ensures Truthy(env.jwtSecret) && !Truthy(header) ==> r == Respond(Reject(401, TokenRequired))
    ensures Truthy(env.jwtSecret) && Truthy(header) && BearerToken(header.value).None? ==>
              r == Respond(Reject(401, MalformedHeader))
    ensures r.Next? <==>
              && Truthy(env.jwtSecret) && Truthy(header)
              && BearerToken(header.value).Some? && BearerToken(header.value).value != ""
              && verify(BearerToken(header.value).value).Decoded?
              && Truthy(verify(BearerToken(header.value).value).id)
    ensures Truthy(env.jwtSecret) && Truthy(header) && BearerToken(header.value) == Some("") ==>
              r == Respond(Reject(401, TokenMissing))
    ensures Truthy(env.jwtSecret) && Truthy(header) && BearerToken(header.value).Some?
            && BearerToken(header.value).value != "" ==>
              var v := verify(BearerToken(header.value).value);
              && (v.Decoded? && !Truthy(v.id) ==> r == Respond(Reject(401, TokenWithoutId)))
              && (v.JsonWebTokenError? ==> r == Respond(Reject(401, InvalidToken)))
              && (v.OtherVerifyError? ==> r == Respond(Reject(401, AuthenticationError)))
    ensures r.Next? ==> Some(r.userId) == verify(BearerToken(header.value).value).id
    ensures r.Respond? ==> r.response.code in {401, 500}
    ensures r.Respond? && r.response.code == 500 ==> !Truthy(env.jwtSecret)
  {
    if !Truthy(env.jwtSecret) then Respond(Reject(500, ServerMisconfigured))
    else if !Truthy(header) then Respond(Reject(401, TokenRequired))
    else match BearerToken(header.value)
      case None => Respond(Reject(401, MalformedHeader))
      case Some(token) =>
        if token == "" then Respond(Reject(401, TokenMissing))
        else match verify(token)
          case Decoded(id, _) =>
            if !Truthy(id) then Respond(Reject(401, TokenWithoutId)) else Next(id.value)
          case JsonWebTokenError => Respond(Reject(401, InvalidToken))
          case OtherVerifyError => Respond(Reject(401, AuthenticationError))
  }

  /** "Bearer " with nothing after it is well formed but has an empty
      token, and is refused. */
  lemma EmptyTokenRefused(env: Env, verify: string -> Verification)
    requires Truthy(env.jwtSecret)
    ensures Authenticate(env, Some("Bearer "), verify) == Respond(Reject(401, TokenMissing))
  {
    SplitTwo("Bearer", "", ' ');
    assert "Bearer " == "Bearer" + [' '] + "";
  }

  /** A well-formed header passes on exactly the id the token carries. */
  lemma BearerHeaderAdmits(env: Env, token: string, id: UserId, verify: string -> Verification)
    requires Truthy(env.jwtSecret) && token != "" && ' ' !in token
    requires verify(token).Decoded? && verify(token).id == Some(id)
    ensures Authenticate(env, Some("Bearer " + token), verify) == Next(id)
  {
    assert "Bearer " + token == "Bearer" + [' '] + token;
    SplitTwo("Bearer", token, ' ');
  }

  /** Expiry is ignored: two verifiers that differ only in the `expired`
      flag of their claims lead to the same outcome. */
  lemma ExpiryIgnored(env: Env, header: Option<string>, v1: string -> Verification, v2: string -> Verification)
    requires forall tok :: v1(tok).Decoded? <==> v2(tok).Decoded?
    requires forall tok :: v1(tok).Decoded? ==> v1(tok).id == v2(tok).id
    requires forall tok :: !v1(tok).Decoded? ==> v1(tok) == v2(tok)
    ensures Authenticate(env, header, v1) == Authenticate(env, header, v2)
  {
  }
}

=== FILE: common.dfy ===
/** Shared vocabulary of the payment back end: optional values, results,
    JavaScript truthiness, the string helpers the handlers rely on, and the
    process configuration, passed explicitly instead of read from the
    environment at call time. */
module Common {

  datatype Option<+T> = None | Some(value: T)

  datatype Result<+T, +E> = Ok(value: T) | Err(error: E)

  /** `!!v` for an optional string: an absent value and "" are falsy. */
  predicate Truthy(v: Option<string>) {
    v.Some? && v.value != ""
  }

  /** `!!v` for an optional number: an absent value and 0 are falsy. */
  predicate TruthyNum(v: Option<real>) {
    v.Some? && v.value != 0.0
  }

  /** JavaScript `a || b` on optional strings: the first truthy operand,
      else the last one. */
  function Or(a: Option<string>, b: Option<string>): (r: Option<string>)
    ensures r == a || r == b
    ensures Truthy(r) <==> Truthy(a) || Truthy(b)
    ensures Truthy(a) ==> r == a
  {
    if Truthy(a) then a else b
  }

  /** JavaScript `a || b` on optional numbers. */
  function OrNum(a: Option<real>, b: Option<real>): (r: Option<real>)
    ensures r == a || r == b
    ensures TruthyNum(r) <==> TruthyNum(a) || TruthyNum(b)
    ensures TruthyNum(a) ==> r == a
  {
    if TruthyNum(a) then a else b
  }

  /** JavaScript `a || b` on optional integers. */
  function OrInt(a: Option<int>, b: Option<int>): (r: Option<int>)
    ensures r == a || r == b
    ensures (a.Some? && a.value != 0) ==> r == a
  {
    if a.Some? && a.value != 0 then a else b
  }

  /** Upper-casing of one character, for every character whose upper case
      is a single ASCII letter: the ASCII lower-case letters, the long s
      (U+017F) and the dotless i (U+0131). */
  function UpperChar(c: char): (u: char)
    ensures 'a' <= c <= 'z' ==> u as int == c as int - 32
    ensures c == '\U{017F}' ==> u == 'S'
    ensures c == '\U{0131}' ==> u == 'I'
    ensures !('a' <= c <= 'z') && c != '\U{017F}' && c != '\U{0131}' ==> u == c
  {
    if 'a' <= c <= 'z' then (c as int - 32) as char
    else if c == '\U{017F}' then 'S'
    else if c == '\U{0131}' then 'I'
    else c
  }

  /** `String.prototype.toUpperCase`, character by character. */
  function ToUpper(s: string): (r: string)
    ensures |r| == |s|
    ensures forall i :: 0 <= i < |s| ==> r[i] == UpperChar(s[i])
  {
    seq(|s|, i requires 0 <= i < |s| => UpperChar(s[i]))
  }

  /** A character outside the Basic Multilingual Plane, which UTF-16 stores
      as a surrogate pair. */
  predicate Astral(c: char) {
    c as int >= 0x1_0000
  }

  /** JavaScript's `length`: the number of UTF-16 code units, so every
      astral character counts twice. */
  function Utf16Length(s: string): (n: nat)
    ensures |s| <= n <= 2 * |s|
    ensures n == |s| <==> forall i :: 0 <= i < |s| ==> !Astral(s[i])
    decreases |s|
  {
    if |s| == 0 then 0
    else
      var init := s[..|s| - 1];
      assert forall i :: 0 <= i < |init| ==> init[i] == s[i];
      Utf16Length(init) + (if Astral(s[|s| - 1]) then 2 else 1)
  }

  /** `String.prototype.startsWith`. */
  predicate StartsWith(s: string, prefix: string) {
    |prefix| <= |s| && s[..|prefix|] == prefix
  }

  predicate AllDigits(r: string) {
    forall i :: 0 <= i < |r| ==> '0' <= r[i] <= '9'
  }

  /** The number a string of decimal digits denotes. */
  function FromDigits(r: string): nat
    requires AllDigits(r)
    decreases |r|
  {
    if |r| == 0 then 0 else FromDigits(r[..|r| - 1]) * 10 + (r[|r| - 1] as int - 48)
  }

  /** Decimal rendering of a natural number, as template literals print it:
      digits only, no leading zero, denoting the number itself. */
  function Digits(n: nat): (r: string)
    ensures |r| >= 1 && AllDigits(r)
    ensures FromDigits(r) == n
    ensures |r| > 1 ==> r[0] != '0'
    ensures r[0] == '0' ==> n == 0 && r == "0"
    decreases n
  {
    if n < 10 then [(n + 48) as char]
    else
      var prefix := Digits(n / 10);
      var r := prefix + [(n % 10 + 48) as char];
      assert r[..|r| - 1] == prefix;
      r
  }

  /** The process configuration the handlers read: the gateway keys, the
      webhook secret, the JWT secret and the webhook callback URL. */
  datatype Env = Env(
    merchantKey: Option<string>,
    payoutKey: Option<string>,
    webhookSecret: Option<string>,
    jwtSecret: Option<string>,
    webhookUrl: Option<string>)
}

=== FILE: cors.dfy ===
/** The cross-origin policy: which `Origin` headers the server accepts. */
module CorsPolicy {
  import opened Common

  /** The seven front ends allowed to call the API. */
  const AllowedOrigins: seq<string> := [
    "https://back-ghost-1.onrender.com",
    "https://egback-1.onrender.com",
    "https://esacpeghost.netlify.app",
    "http://localhost:3000",
    "http://127.0.0.1:3000",
    "http://localhost:5000",
    "http://127.0.0.1:5000"
  ]

  /** What the `origin` option hands its callback: `callback(null, true)`
      or `callback(new Error(message))`. Returning one decision is calling
      the callback exactly once. */
  datatype Decision = Allow | Deny(message: string)

  const DenyMessage := "Not allowed by CORS"

  function CheckOrigin(origin: Option<string>): (d: Decision)
    ensures d == Allow <==> !Truthy(origin) || origin.value in AllowedOrigins
    ensures d != Allow ==> d == Deny(DenyMessage)
  {
    if !Truthy(origin) || origin.value in AllowedOrigins then Allow else Deny(DenyMessage)
  }

  /** Requests without an `Origin` (same-origin or non-browser) pass. */
  lemma AbsentOriginAllowed()
    ensures CheckOrigin(None) == Allow
    ensures CheckOrigin(Some("")) == Allow
  {
  }

  /** The list is exactly seven distinct origins, and matching is exact:
      a trailing slash or a different scheme is refused. */
  lemma AllowListExact()
    ensures |AllowedOrigins| == 7
    ensures forall i, j :: 0 <= i < j < |AllowedOrigins| ==> AllowedOrigins[i] != AllowedOrigins[j]
    ensures CheckOrigin(Some("http://localhost:3000")) == Allow
    ensures CheckOrigin(Some("http://localhost:3000/")) == Deny(DenyMessage)
    ensures CheckOrigin(Some("https://localhost:3000")) == Deny(DenyMessage)
    ensures CheckOrigin(Some("http://localhost:8080")) == Deny(DenyMessage)
  {
  }
}

=== FILE: deposit.dfy ===
/** The deposit controller: creating an invoice and a pending deposit, and
    polling the gateway for the invoice's status. */
module DepositController {
  import opened Common
  import opened TransactionSchema
  import opened Http
  import opened Ledger
  import Oxa = OxapayService

  /** The smallest deposit, in US dollars. */
  const MinDeposit: real := 0.5

  const MissingPayAddress := "Réponse invalide d'OxaPay: adresse de paiement manquante"

  /** `invoice.result?.X`: the nested object, or one with every member
      absent when `result` is missing or is a bare string. */
  function Nested(b: Oxa.Body): (n: Oxa.ResultField)
    ensures n.ResultObject?
  {
    if b.result.Some? && b.result.value.ResultObject? then b.result.value
    else Oxa.ResultObject(None, None, None, None, None, None)
  }

  /** The invoice fields the controller reads, whatever the reply's shape. */
  datatype InvoiceView = InvoiceView(
    payAddress: Option<string>,
    payAmount: Option<real>,
    invoiceId: Option<string>,
    paymentUrl: Option<string>,
    expireTime: Option<int>)

  /** Each field of the view is taken from one of the places the reply may
      carry it, and the pay address is present exactly when one of its
      three places holds one. */
  function Normalize(b: Oxa.Body): (v: InvoiceView)
    ensures v.payAddress in {Nested(b).payAddress, b.payAddress, b.address}
    ensures v.payAmount in {Nested(b).payAmount, b.payAmount, b.amount}
    ensures v.invoiceId in {Nested(b).invoiceId, b.invoiceId, Nested(b).trackId}
    ensures v.paymentUrl in {Nested(b).paymentUrl, b.paymentUrl, b.link}
    ensures v.expireTime in {Nested(b).expireTime, b.expireTime}
    ensures Truthy(v.payAddress) <==> Truthy(Nested(b).payAddress) || Truthy(b.payAddress) || Truthy(b.address)
  {
    var n := Nested(b);
    InvoiceView(
      Or(n.payAddress, Or(b.payAddress, b.address)),
      OrNum(n.payAmount, OrNum(b.payAmount, b.amount)),
      Or(n.invoiceId, Or(b.invoiceId, n.trackId)),
      Or(n.paymentUrl, Or(b.paymentUrl, b.link)),
      OrInt(n.expireTime, b.expireTime))
  }

  /** Each field is the first present of the nested member, the top-level
      member and the fallback member; the pay address is present exactly
      when one of its three sources is. */
  lemma NormalizeFirstPresent(b: Oxa.Body)
    ensures var v := Normalize(b); var n := Nested(b);
            && (Truthy(v.payAddress) <==> Truthy(n.payAddress) || Truthy(b.payAddress) || Truthy(b.address))
            && (Truthy(n.payAddress) ==> v.payAddress == n.payAddress)
            && (!Truthy(n.payAddress) && Truthy(b.payAddress) ==> v.payAddress == b.payAddress)
            && (!Truthy(n.payAddress) && !Truthy(b.payAddress) ==> v.payAddress == b.address)
            && (TruthyNum(n.payAmount) ==> v.payAmount == n.payAmount)
            && (!TruthyNum(n.payAmount) && TruthyNum(b.payAmount) ==> v.payAmount == b.payAmount)
            && (!TruthyNum(n.payAmount) && !TruthyNum(b.payAmount) ==> v.payAmount == b.amount)
            && (Truthy(n.invoiceId) ==> v.invoiceId == n.invoiceId)
            && (!Truthy(n.invoiceId) && Truthy(b.invoiceId) ==> v.invoiceId == b.invoiceId)
            && (!Truthy(n.invoiceId) && !Truthy(b.invoiceId) ==> v.invoiceId == n.trackId)
            && (Truthy(n.paymentUrl) ==> v.paymentUrl == n.paymentUrl)
            && (!Truthy(n.paymentUrl) && Truthy(b.paymentUrl) ==> v.paymentUrl == b.paymentUrl)
            && (!Truthy(n.paymentUrl) && !Truthy(b.paymentUrl) ==> v.paymentUrl == b.link)
            && (n.expireTime.Some? && n.expireTime.value != 0 ==> v.expireTime == n.expireTime)
            && (!(n.expireTime.Some? && n.expireTime.value != 0) ==> v.expireTime == b.expireTime)
  {
  }

  /** The request checks, in the order the controller runs them. */
  function CheckRequest(amount: Option<real>, crypto: Option<string>): (r: Result<(real, Asset), Reason>)
    ensures r.Ok? <==> ValidAmount(amount) && AssetOfRequest(crypto).Some? && amount.value >= MinDeposit
    ensures r.Ok? ==> r.value == (amount.value, AssetOfRequest(crypto).value)
    ensures !ValidAmount(amount) ==> r == Err(InvalidAmount)
    ensures ValidAmount(amount) && AssetOfRequest(crypto).None? ==> r == Err(InvalidCrypto)
    ensures ValidAmount(amount) && AssetOfRequest(crypto).Some? && amount.value < MinDeposit ==>
              r == Err(BelowMinimum(MinDeposit))
  {
    if !ValidAmount(amount) then Err(InvalidAmount)
    else match AssetOfRequest(crypto)
      case None => Err(InvalidCrypto)
      case Some(asset) =>
        if amount.value < MinDeposit then Err(BelowMinimum(MinDeposit)) else Ok((amount.value, asset))
  }

  /** The record a successful creation saves. */
  function DepositDraft(user: UserId, amount: real, asset: Asset, v: InvoiceView): Draft {
    Draft(Some(user), Some("deposit"), Some(AssetName(asset)), Some(amount),
          v.payAmount, v.payAddress, v.invoiceId, Some("pending"), None)
  }

  /** The record the schema accepts for the draft: a deposit draft always
      validates, since every field it fills is one the schema allows. */
  function DepositRecord(user: UserId, amount: real, asset: Asset, v: InvoiceView): (t: Tx)
    ensures Validate(DepositDraft(user, amount, asset, v)) == Ok(t)
    ensures t == Tx(user, Deposit, asset, amount, v.payAmount, v.payAddress, v.invoiceId, Pending, None)
  {
    var t := Tx(user, Deposit, asset, amount, v.payAmount, v.payAddress, v.invoiceId, Pending, None);
    assert DraftOf(t) == DepositDraft(user, amount, asset, v);
    ValidateDraftOf(t);
    t
  }

  /** A pending deposit of `amount` in `asset` owned by `user`. */
  predicate IsNewDeposit(t: Tx, user: UserId, amount: real, asset: Asset) {
    t.user == user && t.kind == Deposit && t.asset == asset && t.amountFiat == amount && t.status == Pending
  }

  /** The invoice request an accepted deposit sends: the requested amount
      and asset under the generated order id, in dollars, for fifteen
      minutes, calling back the configured URL. */
  function InvoiceSent(env: Env, amount: real, asset: Asset, orderId: string): (q: Oxa.InvoiceRequest)
    ensures q.amount == amount && q.orderId == orderId
    ensures ParseAsset(q.payCurrency) == Some(asset)
    ensures q.currency == "USD" && q.lifetime == 900 && q.callbackUrl == env.webhookUrl
  {
    assert ParseAsset(AssetName(asset)) == Some(asset);
    Oxa.DepositInvoiceDefaults(env, amount, AssetName(asset), orderId);
    Oxa.InvoiceRequestFor(env, amount, AssetName(asset), orderId, Oxa.NoInvoiceOptions)
  }

  /** What the service makes of the gateway's answer to that request. */
  function InvoiceReply(env: Env, amount: Option<real>, crypto: Option<string>, orderId: string,
                        gateway: Oxa.InvoiceRequest -> Oxa.Outcome): Result<Oxa.Body, Oxa.ServiceError>
    requires CheckRequest(amount, crypto).Ok?
  {
    Oxa.Call(env, Oxa.CreateInvoice, gateway(InvoiceSent(env, amount.value, AssetOfRequest(crypto).value, orderId)))
  }

  /** `createDeposit`. The order id is the fresh identifier the controller
      generates; `gateway` answers the invoice request the controller sends. */
  function CreateDeposit(env: Env, s: State, user: UserId, amount: Option<real>, crypto: Option<string>,
                         orderId: string, gateway: Oxa.InvoiceRequest -> Oxa.Outcome): (r: Step)
    ensures r.state.balances == s.balances
    ensures r.response.code != 200 ==> r.state == s
    ensures r.response.code == 200 <==>
              && CheckRequest(amount, crypto).Ok?
              && InvoiceReply(env, amount, crypto, orderId, gateway).Ok?
              && Truthy(Normalize(InvoiceReply(env, amount, crypto, orderId, gateway).value).payAddress)
    ensures CheckRequest(amount, crypto).Err? ==> r.response == Reject(400, CheckRequest(amount, crypto).error)
    ensures CheckRequest(amount, crypto).Ok? && InvoiceReply(env, amount, crypto, orderId, gateway).Err? ==>
              r.response == Reject(500, Internal(Oxa.ErrorText(InvoiceReply(env, amount, crypto, orderId, gateway).error)))
    ensures CheckRequest(amount, crypto).Ok? && InvoiceReply(env, amount, crypto, orderId, gateway).Ok?
            && !Truthy(Normalize(InvoiceReply(env, amount, crypto, orderId, gateway).value).payAddress) ==>
              r.response == Reject(500, Internal(MissingPayAddress))
    ensures r.response.code == 200 ==>
              && |r.state.txs| == |s.txs| + 1
              && r.state.txs[..|s.txs|] == s.txs
              && IsNewDeposit(r.state.txs[|s.txs|], user, amount.value, AssetOfRequest(crypto).value)
              && r.state.txs[|s.txs|] == DepositRecord(user, amount.value, AssetOfRequest(crypto).value,
                                                       Normalize(InvoiceReply(env, amount, crypto, orderId, gateway).value))
              && Truthy(r.state.txs[|s.txs|].address)
              && r.response.payload.InvoiceCreated?
              && r.response.payload.status == Pending
              && Some(r.response.payload.payAddress) == r.state.txs[|s.txs|].address
              && r.response.payload.invoiceId == r.state.txs[|s.txs|].invoiceId
              && var v := Normalize(InvoiceReply(env, amount, crypto, orderId, gateway).value);
                 r.response.payload == InvoiceCreated(v.invoiceId, v.payAddress.value, v.payAmount,
                                                      AssetOfRequest(crypto).value, v.paymentUrl, v.expireTime, Pending)
    ensures Valid(s) ==> Valid(r.state)
  {
    match CheckRequest(amount, crypto)
    case Err(reason) => Step(s, Reject(400, reason))
    case Ok((value, asset)) =>
      match InvoiceReply(env, amount, crypto, orderId, gateway)
      case Err(e) => Step(s, Reject(500, Internal(Oxa.ErrorText(e))))
      case Ok(body) =>
        var v := Normalize(body);
        if !Truthy(v.payAddress) then Step(s, Reject(500, Internal(MissingPayAddress)))
        else
          var t := DepositRecord(user, value, asset, v);
          var s' := Insert(s, t);
          assert s'.txs[..|s.txs|] == s.txs;
          Step(s', Response(200, InvoiceCreated(v.invoiceId, v.payAddress.value, v.payAmount, asset,
                                                v.paymentUrl, v.expireTime, Pending)))
  }

  /** The request is checked before the gateway is called or anything is
      saved: a rejected request gets the same answer whatever the
      configuration, the order id and the gateway would have done. */
  lemma ValidationPrecedesGateway(env1: Env, env2: Env, s: State, user: UserId, amount: Option<real>,
                                  crypto: Option<string>, o1: string, o2: string,
                                  h1: Oxa.InvoiceRequest -> Oxa.Outcome, h2: Oxa.InvoiceRequest -> Oxa.Outcome)
    requires CheckRequest(amount, crypto).Err?
    ensures CreateDeposit(env1, s, user, amount, crypto, o1, h1) == CreateDeposit(env2, s, user, amount, crypto, o2, h2)
    ensures CreateDeposit(env1, s, user, amount, crypto, o1, h1).response.code == 400
  {
  }

  /** The records `checkDepositStatus` may look at: the caller's, under
      the given invoice id. */
  predicate OwnedInvoice(t: Tx, user: UserId, invoiceId: string) {
    t.invoiceId == Some(invoiceId) && t.user == user
  }

  function FindOwnedInvoice(s: State, user: UserId, invoiceId: string): (r: Option<TxId>)
    ensures r.Some? ==> r.value < |s.txs| && OwnedInvoice(s.txs[r.value], user, invoiceId)
    ensures r.None? ==> forall j :: 0 <= j < |s.txs| ==> !OwnedInvoice(s.txs[j], user, invoiceId)
  {
    FindFirst(s.txs, t => OwnedInvoice(t, user, invoiceId))
  }

  /** The invoice status table of the poll: a recognised gateway status
      names the new status, anything else keeps the current one. */
  function InvoiceTransition(observed: Option<string>, current: Status): (r: Status)
    ensures r != current ==> r in {Paid, Expired, Failed}
    ensures observed in {Some("Paid"), Some("Completed")} ==> r == Paid
    ensures observed == Some("Expired") ==> r == Expired
    ensures observed == Some("Failed") ==> r == Failed
    ensures observed !in {Some("Paid"), Some("Completed"), Some("Expired"), Some("Failed")} ==> r == current
  {
    if observed == Some("Paid") || observed == Some("Completed") then Paid
    else if observed == Some("Expired") then Expired
    else if observed == Some("Failed") then Failed
    else current
  }

  /** Statuses the poll answers from the store without asking the gateway.
      `expired` and `failed` are not among them. */
  predicate Settled(st: Status) {
    st == Paid || st == Completed
  }

  function StateOf(t: Tx, st: Status): Payload {
    DepositState(st, t.amountFiat, t.amountCrypto)
  }

  /** `checkDepositStatus`: `http` is the outcome of the status request. */
  function CheckDepositStatus(env: Env, s: State, user: UserId, invoiceId: string, http: Oxa.Outcome): (r: Step)
    ensures r.state.balances == s.balances
    ensures |r.state.txs| == |s.txs| && Extends(s, r.state)
    ensures invoiceId == "" ==> r == Step(s, Reject(400, InvoiceIdRequired))
    ensures invoiceId != "" && FindOwnedInvoice(s, user, invoiceId).None? ==>
              r == Step(s, Reject(404, TransactionNotFound))
    ensures invoiceId != "" && FindOwnedInvoice(s, user, invoiceId).Some? ==>
              var i := FindOwnedInvoice(s, user, invoiceId).value;
              var t := s.txs[i];
              var call := Oxa.Call(env, Oxa.CheckInvoiceStatus, http);
              && (Settled(t.status) || call.Err? ==> r == Step(s, Response(200, StateOf(t, t.status))))
              && (!Settled(t.status) && call.Ok? ==>
                    var st := InvoiceTransition(call.value.status, t.status);
                    r == Step(Put(s, i, t.(status := st)), Response(200, StateOf(t, st))))
    ensures Valid(s) ==> Valid(r.state)
  {
    if invoiceId == "" then Step(s, Reject(400, InvoiceIdRequired))
    else match FindOwnedInvoice(s, user, invoiceId)
      case None => Step(s, Reject(404, TransactionNotFound))
      case Some(i) =>
        var t := s.txs[i];
        if Settled(t.status) then Step(s, Response(200, StateOf(t, t.status)))
        else match Oxa.Call(env, Oxa.CheckInvoiceStatus, http)
          case Err(_) => Step(s, Response(200, StateOf(t, t.status)))
          case Ok(body) =>
            var st := InvoiceTransition(body.status, t.status);
            var s' := if st != t.status then Put(s, i, t.(status := st)) else s;
            assert st == t.status ==> s.txs[i := t.(status := st)] == s.txs;
            Step(s', Response(200, StateOf(t, st)))
  }
}

=== FILE: gaps.dfy ===
/** Concrete runs that exhibit behaviours of the payment handlers which no
    caller would want: each lemma builds a small ledger, runs the handlers
    on it and states the outcome. The handlers are modelled as written;
    nothing here corrects them. */
module KnownGaps {
  import opened Common
  import opened TransactionSchema
  import opened Http
  import opened Ledger
  import Oxa = OxapayService
  import DepositController
  import WithdrawController
  import WebhookController

  const Alice: UserId := "alice"
  const Invoice := "inv-1"
  const Secret := "whsec"

  /** A fully configured process. */
  const Configured := Env(Some("merchant-key"), Some("payout-key"), Some(Secret), Some("jwt-secret"), None)

  /** A successful gateway reply that reports `status`. */
  function Reports(status: string): (h: Oxa.Outcome)
    ensures Oxa.Call(Configured, Oxa.CheckInvoiceStatus, h).Ok?
    ensures Oxa.Call(Configured, Oxa.CheckPayoutStatus, h).value.status == Some(status)
  {
    Oxa.Reply(Oxa.Body(Some(Oxa.SuccessCode), None, None, None, None, None, None, None, None, None, None,
                       Some(status), None, None, None))
  }

  /** A pending record of 10 dollars of the given kind under `Invoice`. */
  function PendingRecord(kind: Kind): (t: Tx)
    ensures t.status == Pending && t.invoiceId == Some(Invoice) && t.amountFiat == 10.0
  {
    Tx(Alice, kind, USDT, 10.0, None, Some("TXYZ"), Some(Invoice), Pending, None)
  }

  /** Alice, with `balance`, and one pending record of the given kind. */
  function Ledger1(kind: Kind, balance: real): (s: State)
    ensures Valid(s) <==> balance >= 0.0
  {
    var s := State(map[Alice := balance], [PendingRecord(kind)]);
    assert Alice in s.balances && s.balances[Alice] == balance;
    s
  }

  function Hook(status: string): WebhookController.WebhookBody {
    WebhookController.WebhookBody(status, Some(Invoice), None, None)
  }

  /** The webhook under the configured secret. */
  function Webhook(s: State, status: string): State {
    WebhookController.HandleWebhook(Configured, s, Some(Secret), Hook(status)).state
  }

  /** On its own, the confirming webhook credits the deposit. */
  lemma WebhookAloneCredits()
    ensures Webhook(Ledger1(Deposit, 0.0), "Paid").balances[Alice] == 10.0
  {
    var s := Ledger1(Deposit, 0.0);
    assert WebhookController.FindTarget(s, Hook("Paid")) == Some(0);
  }

  /** If the user polls first and the gateway already says "Paid", the poll
      marks the deposit `paid` without crediting, and the webhook then finds
      it `paid` and credits nothing: the money never arrives. */
  lemma PollBeforeWebhookLosesCredit()
    ensures var s1 := DepositController.CheckDepositStatus(Configured, Ledger1(Deposit, 0.0), Alice, Invoice,
                                                           Reports("Paid")).state;
            && s1.txs[0].status == Paid
            && Webhook(s1, "Paid").balances[Alice] == 0.0
  {
    var s := Ledger1(Deposit, 0.0);
    assert DepositController.FindOwnedInvoice(s, Alice, Invoice) == Some(0);
    var s1 := DepositController.CheckDepositStatus(Configured, s, Alice, Invoice, Reports("Paid")).state;
    assert WebhookController.FindTarget(s1, Hook("Paid")) == Some(0);
  }

  /** "Expired" overwrites a `paid` record, so a later "Paid" credits the
      same deposit a second time. */
  lemma ExpiryReopensPaidDeposit()
    ensures Webhook(Webhook(Webhook(Ledger1(Deposit, 0.0), "Paid"), "Expired"), "Paid").balances[Alice] == 20.0
  {
    var s0 := Ledger1(Deposit, 0.0);
    assert WebhookController.FindTarget(s0, Hook("Paid")) == Some(0);
    var s1 := Webhook(s0, "Paid");
    assert s1.txs[0].status == Paid && s1.balances[Alice] == 10.0;
    assert WebhookController.FindTarget(s1, Hook("Expired")) == Some(0);
    var s2 := Webhook(s1, "Expired");
    assert s2.txs[0].status == Expired && s2.balances[Alice] == 10.0;
    assert WebhookController.FindTarget(s2, Hook("Paid")) == Some(0);
  }

  /** The webhook never looks at the record's kind: a "Paid" delivery that
      names a pending withdrawal adds the withdrawn amount back. */
  lemma WebhookCreditsWithdrawal()
    ensures var s' := Webhook(Ledger1(Withdraw, 0.0), "Paid");
            s'.balances[Alice] == 10.0 && s'.txs[0].kind == Withdraw && s'.txs[0].status == Paid
  {
    assert WebhookController.FindTarget(Ledger1(Withdraw, 0.0), Hook("Paid")) == Some(0);
  }

  /** With no secret configured, a delivery without the header is accepted
      and credits like a genuine one. */
  lemma MissingSecretAdmitsAnyone()
    ensures var env := Configured.(webhookSecret := None);
            && WebhookController.Authorized(env, None)
            && WebhookController.HandleWebhook(env, Ledger1(Deposit, 0.0), None, Hook("Paid")).state.balances[Alice] == 10.0
  {
    assert WebhookController.FindTarget(Ledger1(Deposit, 0.0), Hook("Paid")) == Some(0);
  }

  /** A TRC-20 address of the right shape. */
  const Wallet: string := ['T'] + seq(33, _ => '0')

  /** A gateway that accepts every payout under the id "p-1". */
  function PayoutAccepted(q: Oxa.PayoutRequest): (h: Oxa.Outcome)
    ensures Oxa.Call(Configured, Oxa.SendPayout, h).Ok?
  {
    Oxa.Reply(Oxa.Body(Some(Oxa.SuccessCode), None, None, None, None, None, None, None, None, None, None,
                       None, Some("p-1"), None, None))
  }

  /** When the gateway has accepted the payout but saving its record fails,
      the handler refunds the hold all the same: the balance is back to 20
      dollars and no record exists, although the 10 dollars have left. */
  lemma FailedSaveRefundsSentPayout()
    ensures var s := State(map[Alice := 20.0], []);
            var r := WithdrawController.CreateWithdrawal(Configured, s, Alice, Some(10.0), Some(Wallet), Some("USDT"),
                                                         PayoutAccepted, Some("write failed"));
            && WithdrawController.CheckRequest(Some(10.0), Some(Wallet), Some("USDT")).Ok?
            && WithdrawController.PayoutReply(Configured, Some(10.0), Some(Wallet), Some("USDT"), PayoutAccepted).Ok?
            && r.response.code == 500
            && r.state.balances[Alice] == 20.0
            && r.state.txs == []
  {
    assert ToUpper("USDT") == "USDT";
    assert Wallet[0] == 'T' && |Wallet| == 34;
    assert forall i :: 0 <= i < |Wallet| ==> !Astral(Wallet[i]);
    assert Utf16Length(Wallet) == 34;
    WithdrawController.AddressRules(USDT, Wallet);
  }

  /** The withdrawal poll never looks at the record's kind either: polling a
      pending deposit as if it were a payout, with the gateway answering
      "Failed", refunds 10 dollars that were never held. */
  lemma WithdrawalPollRefundsDeposit()
    ensures var r := WithdrawController.CheckWithdrawalStatus(Configured, Ledger1(Deposit, 0.0), Alice, 0, Reports("Failed"));
            r.state.balances[Alice] == 10.0 && r.state.txs[0].status == Rejected
  {
    assert WithdrawController.Owns(Ledger1(Deposit, 0.0), Alice, 0);
  }
}

=== FILE: http.dfy ===
/** What a handler sends back: a status code and a payload. Express framing,
    JSON encoding and logging are not modelled; error messages are named by
    their cause rather than by their French wording, except for the messages
    that carry text from the gateway or the store. */
module Http {
  import opened Common
  import opened TransactionSchema

  datatype Reason =
    | InvalidAmount
    | InvalidCrypto
    | AddressRequired
    | InvalidAddressFormat(asset: Asset)
    | BelowMinimum(minimum: real)
    | UserNotFound
    | InsufficientFunds(balance: real)
    | TransactionNotFound
    | InvoiceIdRequired
    | WebhookForbidden
    | ServerMisconfigured
    | TokenRequired
    | MalformedHeader
    | TokenMissing
    | TokenWithoutId
    | InvalidToken
    | AuthenticationError
    | Internal(message: string)

  /** One row of the transaction history: the record's id and the record. */
  datatype Entry = Entry(id: nat, tx: Tx)

  datatype Payload =
    | Ack
    | Failure(reason: Reason)
    | InvoiceCreated(invoiceId: Option<string>, payAddress: string, amountCrypto: Option<real>,
                     currency: Asset, paymentUrl: Option<string>, expireTime: Option<int>, status: Status)
    | DepositState(status: Status, amountFiat: real, amountCrypto: Option<real>)
    | WithdrawalCreated(txId: nat, payoutId: Option<string>, amount: real, asset: Asset,
                        address: string, status: Status)
    | WithdrawalState(status: Status, amountFiat: real, asset: Asset)
    | BalanceOf(balance: real, balanceCurrency: string)
    | HistoryPage(rows: seq<Entry>, total: nat, page: int, pages: Option<int>)

  datatype Response = Response(code: int, payload: Payload)

  function Reject(code: int, reason: Reason): Response {
    Response(code, Failure(reason))
  }

  /** The amount check both controllers run first: `!amount || amount <= 0`
      rejects a missing amount, zero and negatives. */
  predicate ValidAmount(amount: Option<real>) {
    amount.Some? && amount.value > 0.0
  }
}

=== FILE: ledger.dfy ===
/** The persistent state the handlers share: one balance per user and the
    transaction collection. A record's id is its position in insertion
    order, which is also the order in which `findOne` meets candidates.
    Saves and finds are map updates and lookups; every handler is one
    atomic step from a state to a state and a response. */
module Ledger {
  import opened Common
  import opened TransactionSchema
  import opened Http

  type TxId = nat

  datatype State = State(balances: map<UserId, real>, txs: seq<Tx>)

  /** The result of one handler: the state after it and the response sent. */
  datatype Step = Step(state: State, response: Response)

  /** The money invariant: no balance is negative and every record moves a
      positive fiat amount. */
  predicate Valid(s: State) {
    && (forall u :: u in s.balances ==> s.balances[u] >= 0.0)
    && (forall i :: 0 <= i < |s.txs| ==> s.txs[i].amountFiat > 0.0)
  }

  /** The fields fixed when a record is created: only `status` and
      `amountCrypto` may differ. */
  predicate SameIdentity(a: Tx, b: Tx) {
    && a.user == b.user
    && a.kind == b.kind
    && a.asset == b.asset
    && a.amountFiat == b.amountFiat
    && a.address == b.address
    && a.invoiceId == b.invoiceId
    && a.txHash == b.txHash
  }

  /** `s'` is reachable from `s` in the append-mostly discipline: no record
      is removed or re-identified, and the set of users is unchanged. */
  predicate Extends(s: State, s': State) {
    && s.balances.Keys == s'.balances.Keys
    && |s.txs| <= |s'.txs|
    && forall i :: 0 <= i < |s.txs| ==> SameIdentity(s.txs[i], s'.txs[i])
  }

  lemma ExtendsTransitive(s1: State, s2: State, s3: State)
    requires Extends(s1, s2) && Extends(s2, s3)
    ensures Extends(s1, s3)
  {
  }

  /** `findOne`: the first record, in insertion order, that satisfies `p`. */
  function FindFirst(txs: seq<Tx>, p: Tx -> bool): (r: Option<TxId>)
    ensures r.Some? ==> r.value < |txs| && p(txs[r.value])
    ensures r.Some? ==> forall j :: 0 <= j < r.value ==> !p(txs[j])
    ensures r.None? ==> forall j :: 0 <= j < |txs| ==> !p(txs[j])
    decreases |txs|
  {
    if |txs| == 0 then None
    else if p(txs[0]) then Some(0)
    else match FindFirst(txs[1..], p)
      case None => None
      case Some(k) => Some(k + 1)
  }

  /** Saving a new record: it is appended and its id is the old length. */
  function Insert(s: State, t: Tx): (s': State)
    ensures s'.balances == s.balances
    ensures |s'.txs| == |s.txs| + 1 && s'.txs[|s.txs|] == t
    ensures forall i :: 0 <= i < |s.txs| ==> s'.txs[i] == s.txs[i]
  {
    State(s.balances, s.txs + [t])
  }

  /** Saving a changed record in place. */
  function Put(s: State, i: TxId, t: Tx): (s': State)
    requires i < |s.txs|
    ensures s'.balances == s.balances
    ensures |s'.txs| == |s.txs| && s'.txs[i] == t
    ensures forall j :: 0 <= j < |s.txs| && j != i ==> s'.txs[j] == s.txs[j]
  {
    State(s.balances, s.txs[i := t])
  }

  /** `user.balance += amount; await user.save()`. */
  function Credit(s: State, u: UserId, amount: real): (s': State)
    requires u in s.balances
    ensures s'.txs == s.txs && s'.balances.Keys == s.balances.Keys
    ensures s'.balances[u] == s.balances[u] + amount
    ensures forall v :: v in s.balances && v != u ==> s'.balances[v] == s.balances[v]
  {
    State(s.balances[u := s.balances[u] + amount], s.txs)
  }

  /** Crediting back what was debited restores the state exactly. */
  lemma CreditUndoesDebit(s: State, u: UserId, amount: real)
    requires u in s.balances
    ensures Credit(Credit(s, u, -amount), u, amount) == s
  {
    assert Credit(Credit(s, u, -amount), u, amount).balances == s.balances;
  }
}

=== FILE: oxapay.dfy ===
/** The gateway client: the request bodies it builds, the environment check
    it runs first, the success-code check on every reply, and the
    classification of everything that goes wrong. The HTTP exchange itself
    is a parameter: a reply body, or the error the HTTP client threw. */
module OxapayService {
  import opened Common
  import opened TransactionSchema

  /** The code a successful gateway reply carries. */
  const SuccessCode := 100

  /** Invoice defaults: priced in US dollars, valid for fifteen minutes. */
  const DefaultCurrency := "USD"
  const DefaultLifetime := 900

  /** The currency used for any asset outside the supported map. */
  const FallbackCurrency := "USDT"

  /** The generic message used when a rejected reply says nothing. */
  const GenericError := "Erreur OxaPay"

  /** The `result` member of a reply: a nested object (newer replies) or a
      bare string. */
  datatype ResultField =
    | ResultObject(payAddress: Option<string>, payAmount: Option<real>, invoiceId: Option<string>,
                   trackId: Option<string>, paymentUrl: Option<string>, expireTime: Option<int>)
    | ResultText(text: string)

  /** A reply body, with every member any of the four calls reads. */
  datatype Body = Body(
    code: Option<int>,
    message: Option<string>,
    result: Option<ResultField>,
    payAddress: Option<string>,
    payAmount: Option<real>,
    invoiceId: Option<string>,
    paymentUrl: Option<string>,
    expireTime: Option<int>,
    address: Option<string>,
    amount: Option<real>,
    link: Option<string>,
    status: Option<string>,
    transId: Option<string>,
    orderId: Option<string>,
    txid: Option<string>)

  /** What the HTTP client can throw: a reply with a non-2xx status, a
      request that got no reply, or any other error (including the ones the
      service throws itself inside its `try`). */
  datatype Thrown =
    | HttpStatus(status: int, data: string, dataMessage: Option<string>, message: string)
    | NoResponse(message: string)
    | Plain(message: string)

  /** The outcome of one HTTP exchange with the gateway. */
  datatype Outcome = Reply(body: Body) | Threw(thrown: Thrown)

  datatype Operation = CreateInvoice | CheckInvoiceStatus | SendPayout | CheckPayoutStatus

  /** The errors the service surfaces to its callers. */
  datatype ServiceError =
    | MissingMerchantKey
    | MissingPayoutKey
    | InvalidApiKey
    | AccessDenied
    | InvalidData(data: string)
    | RemoteError(status: int, detail: string)
    | Unreachable
    | Misconfigured(detail: string)

  /** `_handleError`: it always throws; the branch is chosen by whether the
      error carries a response, only a request, or neither. */
  function HandleError(e: Thrown): (r: ServiceError)
    ensures r.Misconfigured? <==> e.Plain?
    ensures r.Unreachable? <==> e.NoResponse?
    ensures e.HttpStatus? <==> r.InvalidApiKey? || r.AccessDenied? || r.InvalidData? || r.RemoteError?
    ensures r.RemoteError? ==> e.HttpStatus? && e.status !in {401, 403, 422} && r.status == e.status
    ensures e.HttpStatus? && e.status == 401 ==> r == InvalidApiKey
    ensures e.HttpStatus? && e.status == 403 ==> r == AccessDenied
    ensures e.HttpStatus? && e.status == 422 ==> r == InvalidData(e.data)
    ensures e.HttpStatus? && e.status !in {401, 403, 422} ==>
              r == RemoteError(e.status, if Truthy(e.dataMessage) then e.dataMessage.value else e.message)
    ensures e.NoResponse? ==> r == Unreachable
    ensures e.Plain? ==> r == Misconfigured(e.message)
  {
    match e
    case HttpStatus(status, data, dataMessage, message) =>
      if status == 401 then InvalidApiKey
      else if status == 403 then AccessDenied
      else if status == 422 then InvalidData(data)
      else RemoteError(status, if Truthy(dataMessage) then dataMessage.value else message)
    case NoResponse(_) => Unreachable
    case Plain(message) => Misconfigured(message)
  }

  const InvalidDataPrefix := "Données invalides envoyées à OxaPay: "
  const RemotePrefix := "Erreur OxaPay "
  const ConfigurationPrefix := "Erreur de configuration: "

  /** `s` ends with `suffix`. */
  predicate EndsWith(s: string, suffix: string) {
    |suffix| <= |s| && s[|s| - |suffix|..] == suffix
  }

  /** A message made of a fixed prefix and a detail. */
  function Detailed(prefix: string, detail: string): (r: string)
    ensures |r| == |prefix| + |detail|
    ensures StartsWith(r, prefix) && EndsWith(r, detail)
  {
    assert (prefix + detail)[..|prefix|] == prefix;
    assert (prefix + detail)[|prefix|..] == detail;
    prefix + detail
  }

  /** A status message opens with the fixed prefix, then the status code and
      a colon, and closes with the detail. */
  lemma RemoteDetail(prefix: string, code: string, detail: string)
    ensures var m := Detailed(prefix + code, ": " + detail);
            && StartsWith(m, prefix)
            && StartsWith(m, prefix + code + ": ")
            && EndsWith(m, detail)
  {
    var r := prefix + code + (": " + detail);
    assert r[..|prefix|] == prefix;
    assert r[..|prefix + code + ": "|] == prefix + code + ": ";
    assert r[|r| - |detail|..] == detail;
  }

  /** The decimal text of a status code, as a template literal prints it:
      its digits, after a minus sign when it is negative. */
  function StatusText(status: int): (t: string)
    ensures status >= 0 ==> AllDigits(t) && FromDigits(t) == status
    ensures status >= 0 ==> |t| >= 1 && (t[0] == '0' ==> t == "0")
    ensures status < 0 ==> |t| >= 2 && t[0] == '-' && AllDigits(t[1..]) && FromDigits(t[1..]) == -status
    ensures status < 0 ==> t[1] != '0'
  {
    if status >= 0 then Digits(status)
    else
      var t := "-" + Digits(-status);
      assert t[1..] == Digits(-status);
      t
  }

  const MerchantKeyMissing :=
    "OXAPAY_MERCHANT_API_KEY non configurée. Veuillez configurer la clé API dans les variables d'environnement."
  const PayoutKeyMissing :=
    "OXAPAY_PAYOUT_API_KEY non configurée. Veuillez configurer la clé API dans les variables d'environnement."
  const ApiKeyInvalid := "Clé API OxaPay invalide. Veuillez vérifier votre OXAPAY_MERCHANT_API_KEY."
  const AccessRefused := "Accès refusé par OxaPay (403 Forbidden). Vérifiez les permissions de votre clé API."
  const ConnectionFailed := "Impossible de se connecter à OxaPay. Vérifiez votre connexion internet."

  /** The messages of the errors that carry no detail: each is non-empty,
      and the detail-carrying errors have none here. */
  function FixedText(e: ServiceError): (r: string)
    ensures r == "" <==> e.InvalidData? || e.RemoteError? || e.Misconfigured?
  {
    if e.MissingMerchantKey? then MerchantKeyMissing
    else if e.MissingPayoutKey? then PayoutKeyMissing
    else if e.InvalidApiKey? then ApiKeyInvalid
    else if e.AccessDenied? then AccessRefused
    else if e.Unreachable? then ConnectionFailed
    else ""
  }

  /** No two errors without a detail share a message. */
  lemma FixedTextsDistinct(e1: ServiceError, e2: ServiceError)
    requires FixedText(e1) != "" && FixedText(e1) == FixedText(e2)
    ensures e1 == e2
  {
  }

  /** The message of a thrown `Error`, as the callers report it: an error
      that carries a detail shows its own prefix, then the detail. */
  function ErrorText(e: ServiceError): (r: string)
    ensures e.InvalidData? ==> StartsWith(r, InvalidDataPrefix) && EndsWith(r, e.data)
    ensures e.InvalidData? ==> |r| == |InvalidDataPrefix| + |e.data|
    ensures e.RemoteError? ==> |r| == |RemotePrefix| + |StatusText(e.status)| + 2 + |e.detail|
    ensures e.Misconfigured? ==> |r| == |ConfigurationPrefix| + |e.detail|
    ensures e.RemoteError? ==> StartsWith(r, RemotePrefix) && EndsWith(r, e.detail)
    ensures e.RemoteError? ==> StartsWith(r, RemotePrefix + StatusText(e.status) + ": ")
    ensures e.Misconfigured? ==> StartsWith(r, ConfigurationPrefix) && EndsWith(r, e.detail)
    ensures !(e.InvalidData? || e.RemoteError? || e.Misconfigured?) ==> r == FixedText(e) && r != ""
  {
    if e.InvalidData? then Detailed(InvalidDataPrefix, e.data)
    else if e.RemoteError? then
      var m := Detailed(RemotePrefix + StatusText(e.status), ": " + e.detail);
      RemoteDetail(RemotePrefix, StatusText(e.status), e.detail);
      m
    else if e.Misconfigured? then Detailed(ConfigurationPrefix, e.detail)
    else FixedText(e)
  }

  /** `String(result)` of a truthy `result` member: a nested object prints
      as "[object Object]". */
  function ResultString(f: ResultField): string {
    match f
    case ResultObject(_, _, _, _, _, _) => "[object Object]"
    case ResultText(t) => t
  }

  predicate ResultTruthy(f: Option<ResultField>) {
    f.Some? && (f.value.ResultObject? || f.value.text != "")
  }

  /** The message of the error thrown for a reply whose code is not 100: the
      creating calls fall back on `result`, the status calls do not. */
  function RejectionMessage(op: Operation, b: Body): (r: string)
    ensures r != ""
    ensures Truthy(b.message) ==> r == b.message.value
    ensures !Truthy(b.message) && (op == CheckInvoiceStatus || op == CheckPayoutStatus) ==> r == GenericError
    ensures !Truthy(b.message) && !ResultTruthy(b.result) ==> r == GenericError
    ensures !Truthy(b.message) && (op == CreateInvoice || op == SendPayout) && ResultTruthy(b.result) ==>
              r == ResultString(b.result.value)
  {
    if Truthy(b.message) then b.message.value
    else if (op == CreateInvoice || op == SendPayout) && ResultTruthy(b.result) then ResultString(b.result.value)
    else GenericError
  }

  /** One gateway call. `_validateEnv` runs first and outside the `try`, so
      every call needs both keys; then the reply must carry code 100. */
  function Call(env: Env, op: Operation, http: Outcome): (r: Result<Body, ServiceError>)
    ensures r.Ok? <==> Truthy(env.merchantKey) && Truthy(env.payoutKey)
                       && http.Reply? && http.body.code == Some(SuccessCode)
    ensures r.Ok? ==> r.value == http.body
    ensures !Truthy(env.merchantKey) ==> r == Err(MissingMerchantKey)
    ensures Truthy(env.merchantKey) && !Truthy(env.payoutKey) ==> r == Err(MissingPayoutKey)
    ensures Truthy(env.merchantKey) && Truthy(env.payoutKey) && http.Threw? ==>
              r == Err(HandleError(http.thrown))
  {
    if !Truthy(env.merchantKey) then Err(MissingMerchantKey)
    else if !Truthy(env.payoutKey) then Err(MissingPayoutKey)
    else match http
      case Threw(e) => Err(HandleError(e))
      case Reply(b) =>
        if b.code != Some(SuccessCode) then Err(HandleError(Plain(RejectionMessage(op, b))))
        else Ok(b)
  }

  /** A reply that carries a code other than 100 is an error in all four
      calls, and since the error is thrown inside the service itself it
      carries neither a response nor a request: it always surfaces as a
      configuration error whose detail is the reply's message. */
  lemma RejectedReplyIsConfigurationError(env: Env, op: Operation, b: Body)
    requires Truthy(env.merchantKey) && Truthy(env.payoutKey)
    requires b.code != Some(SuccessCode)
    ensures Call(env, op, Reply(b)) == Err(Misconfigured(RejectionMessage(op, b)))
    ensures Truthy(b.message) ==> ErrorText(Call(env, op, Reply(b)).error) == "Erreur de configuration: " + b.message.value
  {
  }

  /** The invoice call needs the payout key too, although it never sends it. */
  lemma InvoiceCallNeedsPayoutKey(env: Env, http: Outcome)
    requires Truthy(env.merchantKey) && !Truthy(env.payoutKey)
    ensures Call(env, CreateInvoice, http) == Err(MissingPayoutKey)
    ensures Call(env, CheckInvoiceStatus, http) == Err(MissingPayoutKey)
  {
  }

  /** `CRYPTO_MAP[crypto] || 'USDT'`: the map is the identity on the five
      supported names. */
  function GatewayCurrency(crypto: string): (r: string)
    ensures ParseAsset(r).Some?
    ensures ParseAsset(crypto).Some? ==> r == crypto
    ensures ParseAsset(crypto).None? ==> r == FallbackCurrency
  {
    if ParseAsset(crypto).Some? then crypto else FallbackCurrency
  }

  /** `_getNetwork`: the payout network of an asset name. */
  function Network(crypto: string): (r: string)
    ensures r in {"trc20", "btc", "erc20", "bep20"}
  {
    match ParseAsset(crypto)
    case Some(TRX) => "trc20"
    case Some(USDT) => "trc20"
    case Some(BTC) => "btc"
    case Some(ETH) => "erc20"
    case Some(BNB) => "bep20"
    case None => "trc20"
  }

  /** Network selection by asset, with TRC-20 for every unknown name. */
  lemma NetworkTable(crypto: string)
    ensures crypto in {"TRX", "USDT"} ==> Network(crypto) == "trc20"
    ensures crypto == "BTC" ==> Network(crypto) == "btc"
    ensures crypto == "ETH" ==> Network(crypto) == "erc20"
    ensures crypto == "BNB" ==> Network(crypto) == "bep20"
    ensures crypto !in {"TRX", "USDT", "BTC", "ETH", "BNB"} ==> Network(crypto) == "trc20"
  {
  }

  /** The optional arguments of `createInvoice`. */
  datatype InvoiceOptions = InvoiceOptions(
    currency: Option<string>,
    lifetime: Option<int>,
    callbackUrl: Option<string>,
    feePaidByPayer: Option<bool>,
    toCurrency: Option<string>,
    description: Option<string>)

  /** The controllers pass no options. */
  const NoInvoiceOptions := InvoiceOptions(None, None, None, None, None, None)

  /** The invoice request body; `None` is a member removed from the body. */
  datatype InvoiceRequest = InvoiceRequest(
    amount: real,
    currency: string,
    orderId: string,
    payCurrency: string,
    lifetime: int,
    callbackUrl: Option<string>,
    feePaidByPayer: Option<int>,
    toCurrency: Option<string>,
    description: Option<string>)

  function InvoiceRequestFor(env: Env, amount: real, crypto: string, orderId: string, o: InvoiceOptions): (q: InvoiceRequest)
    ensures q.amount == amount && q.orderId == orderId
    ensures q.currency == (if Truthy(o.currency) then o.currency.value else DefaultCurrency)
    ensures q.lifetime == (if o.lifetime.Some? && o.lifetime.value != 0 then o.lifetime.value else DefaultLifetime)
    ensures q.payCurrency == GatewayCurrency(crypto)
    ensures Truthy(o.callbackUrl) ==> q.callbackUrl == o.callbackUrl
    ensures !Truthy(o.callbackUrl) ==> q.callbackUrl == env.webhookUrl
    ensures q.feePaidByPayer.Some? <==> o.feePaidByPayer.Some?
    ensures o.feePaidByPayer.Some? ==> q.feePaidByPayer == Some(if o.feePaidByPayer.value then 1 else 0)
    ensures q.toCurrency.Some? ==> Truthy(q.toCurrency) && q.toCurrency == o.toCurrency
    ensures Truthy(o.toCurrency) ==> q.toCurrency == o.toCurrency
    ensures q.description.Some? ==> Truthy(q.description) && q.description == o.description
    ensures Truthy(o.description) ==> q.description == o.description
  {
    InvoiceRequest(
      amount,
      if Truthy(o.currency) then o.currency.value else DefaultCurrency,
      orderId,
      GatewayCurrency(crypto),
      if o.lifetime.Some? && o.lifetime.value != 0 then o.lifetime.value else DefaultLifetime,
      Or(o.callbackUrl, env.webhookUrl),
      if o.feePaidByPayer.None? then None else Some(if o.feePaidByPayer.value then 1 else 0),
      if Truthy(o.toCurrency) then o.toCurrency else None,
      if Truthy(o.description) then o.description else None)
  }

  /** What the deposit controller sends: dollars, fifteen minutes, a
      supported pay currency, no optional member. */
  lemma DepositInvoiceDefaults(env: Env, amount: real, crypto: string, orderId: string)
    ensures var q := InvoiceRequestFor(env, amount, crypto, orderId, NoInvoiceOptions);
            && q.currency == "USD" && q.lifetime == 900
            && ParseAsset(q.payCurrency).Some?
            && q.callbackUrl == env.webhookUrl
            && q.feePaidByPayer.None? && q.toCurrency.None? && q.description.None?
  {
  }

  /** The optional arguments of `sendPayout`. */
  datatype PayoutOptions = PayoutOptions(network: Option<string>, description: Option<string>)

  const NoPayoutOptions := PayoutOptions(None, None)

  datatype PayoutRequest = PayoutRequest(
    amount: real,
    currency: string,
    address: Option<string>,
    network: string,
    description: Option<string>)

  function PayoutRequestFor(amount: real, crypto: string, address: Option<string>, o: PayoutOptions): (q: PayoutRequest)
    ensures q.amount == amount && q.address == address
    ensures q.currency == GatewayCurrency(crypto)
    ensures q.network == (if Truthy(o.network) then o.network.value else Network(crypto))
    ensures q.description.Some? ==> Truthy(q.description) && q.description == o.description
    ensures Truthy(o.description) ==> q.description == o.description
  {
    PayoutRequest(
      amount,
      GatewayCurrency(crypto),
      address,
      if Truthy(o.network) then o.network.value else Network(crypto),
      if Truthy(o.description) then o.description else None)
  }

  /** Without options, a payout's currency and network are those of its
      asset, and an unknown asset is paid out as USDT on TRC-20. */
  lemma PayoutFallback(amount: real, crypto: string, address: Option<string>)
    ensures var q := PayoutRequestFor(amount, crypto, address, NoPayoutOptions);
            && (ParseAsset(crypto).None? ==> q.currency == "USDT" && q.network == "trc20")
            && (ParseAsset(crypto).Some? ==> q.currency == crypto)
            && q.description.None?
  {
  }
}

=== FILE: payments.dfy ===
/** The payments router: the webhook is mounted ahead of the
    authentication middleware and every other route behind it; the balance
    and history endpoints are defined here. */
module PaymentRoutes {
  import opened Common
  import opened TransactionSchema
  import opened Http
  import opened Ledger
  import Oxa = OxapayService
  import AuthMiddleware
  import DepositController
  import WithdrawController
  import WebhookController

  /** History defaults when the query leaves them out. */
  const DefaultLimit := 20
  const DefaultPage := 1

  /** The currency every balance is reported in. */
  const BalanceCurrency := "USD"

  /** The message the store answers a negative skip with (its exact wording
      is the store's and is not modelled). */
  const NegativeSkip := "skip must be non-negative"

  /** `GET /balance`. */
  function Balance(s: State, user: UserId): (r: Response)
    ensures user !in s.balances ==> r == Reject(404, UserNotFound)
    ensures user in s.balances ==> r == Response(200, BalanceOf(s.balances[user], "USD"))
  {
    if user !in s.balances then Reject(404, UserNotFound)
    else Response(200, BalanceOf(s.balances[user], BalanceCurrency))
  }

  /** The history query: the caller's records, and of one kind when a
      truthy `type` is given (a type outside the enum matches nothing). */
  predicate InQuery(t: Tx, user: UserId, kind: Option<string>) {
    t.user == user && (!Truthy(kind) || KindName(t.kind) == kind.value)
  }

  /** Every record the query matches, newest first. Records are created in
      id order, so newest first is decreasing id. */
  function NewestFirst(txs: seq<Tx>, user: UserId, kind: Option<string>): (r: seq<Entry>)
    ensures forall k :: 0 <= k < |r| ==> r[k].id < |txs| && r[k].tx == txs[r[k].id] && InQuery(r[k].tx, user, kind)
    ensures forall k, l :: 0 <= k < l < |r| ==> r[k].id > r[l].id
    ensures forall i :: 0 <= i < |txs| && InQuery(txs[i], user, kind) ==> Entry(i, txs[i]) in r
    decreases |txs|
  {
    if |txs| == 0 then []
    else
      var last := |txs| - 1;
      var older := NewestFirst(txs[..last], user, kind);
      assert forall i :: 0 <= i < last ==> txs[..last][i] == txs[i];
      if InQuery(txs[last], user, kind) then [Entry(last, txs[last])] + older else older
  }

  /** `Math.ceil(total / limit)`, with `null` for a zero limit. */
  function Pages(total: nat, limit: int): (r: Option<int>)
    ensures r.None? <==> limit == 0
    ensures limit > 0 ==> r.value >= 0 && r.value * limit >= total && r.value * limit < total + limit
    ensures limit < 0 ==> r.value <= 0 && r.value * limit <= total < r.value * limit - limit
  {
    if limit == 0 then None
    else if limit > 0 then Some((total + limit - 1) / limit)
    else Some(-(total / (-limit)))
  }

  /** The rows of one page: skip `skip` rows, then take `limit` of them; a
      zero limit takes all, and a negative one takes its magnitude. */
  function Window(rows: seq<Entry>, skip: nat, limit: int): (w: seq<Entry>)
    ensures limit > 0 ==> |w| <= limit
    ensures limit > 0 && skip <= |rows| ==> |w| == (if limit < |rows| - skip then limit else |rows| - skip)
    ensures limit < 0 ==> |w| <= -limit
    ensures limit < 0 && skip <= |rows| ==> |w| == (if -limit < |rows| - skip then -limit else |rows| - skip)
    ensures skip <= |rows| ==> skip + |w| <= |rows|
    ensures skip <= |rows| ==> w == rows[skip..skip + |w|]
    ensures skip >= |rows| ==> w == []
    ensures limit == 0 && skip <= |rows| ==> w == rows[skip..]
  {
    var from := if skip <= |rows| then skip else |rows|;
    var room := |rows| - from;
    var n := if limit == 0 then room
             else if limit > 0 then (if limit < room then limit else room)
             else (if -limit < room then -limit else room);
    rows[from..from + n]
  }

  /** The number of rows before page `page`. */
  function Skip(page: int, limit: int): int {
    (page - 1) * limit
  }

  /** `GET /transactions`. `limit` and `page` are the parsed query values,
      `None` when the query leaves them out. */
  function History(s: State, user: UserId, kind: Option<string>, limit: Option<int>, page: Option<int>): (r: Response)
    ensures var lim := if limit.Some? then limit.value else DefaultLimit;
            var pg := if page.Some? then page.value else DefaultPage;
            var skip := Skip(pg, lim);
            && (skip < 0 ==> r.code == 500)
            && (skip >= 0 ==>
                  && r.code == 200 && r.payload.HistoryPage?
                  && r.payload.total == |NewestFirst(s.txs, user, kind)|
                  && r.payload.page == pg
                  && r.payload.pages == Pages(r.payload.total, lim)
                  && r.payload.rows == Window(NewestFirst(s.txs, user, kind), skip, lim))
  {
    var lim := if limit.Some? then limit.value else DefaultLimit;
    var pg := if page.Some? then page.value else DefaultPage;
    var all := NewestFirst(s.txs, user, kind);
    var skip := Skip(pg, lim);
    if skip < 0 then Reject(500, Internal(NegativeSkip))
    else Response(200, HistoryPage(Window(all, skip, lim), |all|, pg, Pages(|all|, lim)))
  }

  /** With the defaults, the first page is the twenty newest of the caller's
      records. */
  lemma DefaultHistoryPage(s: State, user: UserId, kind: Option<string>)
    ensures var all := NewestFirst(s.txs, user, kind);
            var r := History(s, user, kind, None, None);
            && r.code == 200
            && r.payload.rows == all[..|r.payload.rows|]
            && |r.payload.rows| == (if |all| < 20 then |all| else 20)
            && r.payload.page == 1
  {
  }

  /** The routes of the router, with the inputs each handler reads. */
  datatype Call =
    | WebhookCall(secret: Option<string>, body: WebhookController.WebhookBody)
    | CreateDepositCall(amount: Option<real>, crypto: Option<string>, orderId: string,
                        invoiceGateway: Oxa.InvoiceRequest -> Oxa.Outcome)
    | DepositStatusCall(invoiceId: string, statusHttp: Oxa.Outcome)
    | CreateWithdrawalCall(wAmount: Option<real>, address: Option<string>, wCrypto: Option<string>,
                           payoutGateway: Oxa.PayoutRequest -> Oxa.Outcome, saveFailure: Option<string>)
    | WithdrawalStatusCall(txId: TxId, payoutStatusHttp: Oxa.Outcome)
    | BalanceCall
    | HistoryCall(kind: Option<string>, limit: Option<int>, page: Option<int>)

  /** A request: its `Authorization` header and the route it reaches. */
  datatype Request = Request(authorization: Option<string>, call: Call)

  /** Every route except the webhook sits behind the middleware. */
  predicate Guarded(c: Call) {
    !c.WebhookCall?
  }

  /** The router with its handlers, as one step of the ledger. */
  function Dispatch(env: Env, verify: string -> AuthMiddleware.Verification, s: State, q: Request): (r: Step)
    ensures !Guarded(q.call) ==> r == WebhookController.HandleWebhook(env, s, q.call.secret, q.call.body)
    ensures Guarded(q.call) && AuthMiddleware.Authenticate(env, q.authorization, verify).Respond? ==>
              r == Step(s, AuthMiddleware.Authenticate(env, q.authorization, verify).response)
    ensures Guarded(q.call) && AuthMiddleware.Authenticate(env, q.authorization, verify).Next? ==>
              r == Route(env, s, AuthMiddleware.Authenticate(env, q.authorization, verify).userId, q.call)
    ensures Extends(s, r.state)
    ensures Valid(s) ==> Valid(r.state)
  {
    match q.call
    case WebhookCall(secret, body) => WebhookController.HandleWebhook(env, s, secret, body)
    case _ =>
      match AuthMiddleware.Authenticate(env, q.authorization, verify)
      case Respond(response) => Step(s, response)
      case Next(user) => Route(env, s, user, q.call)
  }

  /** The authenticated routes, for a caller the middleware admitted. */
  function Route(env: Env, s: State, user: UserId, c: Call): (r: Step)
    requires Guarded(c)
    ensures Extends(s, r.state)
    ensures Valid(s) ==> Valid(r.state)
  {
    match c
    case CreateDepositCall(amount, crypto, orderId, gateway) =>
      var r := DepositController.CreateDeposit(env, s, user, amount, crypto, orderId, gateway);
      assert Extends(s, r.state);
      r
    case DepositStatusCall(invoiceId, http) =>
      DepositController.CheckDepositStatus(env, s, user, invoiceId, http)
    case CreateWithdrawalCall(amount, address, crypto, gateway, saveFailure) =>
      var r := WithdrawController.CreateWithdrawal(env, s, user, amount, address, crypto, gateway, saveFailure);
      assert Extends(s, r.state);
      r
    case WithdrawalStatusCall(txId, http) =>
      WithdrawController.CheckWithdrawalStatus(env, s, user, txId, http)
    case BalanceCall => Step(s, Balance(s, user))
    case HistoryCall(kind, limit, page) => Step(s, History(s, user, kind, limit, page))
  }
}

=== FILE: properties.dfy ===
/** Properties of whole runs of the ledger: sequences of requests, repeated
    webhook deliveries and repeated status polls. */
module LedgerProperties {
  import opened Common
  import opened TransactionSchema
  import opened Http
  import opened Ledger
  import Oxa = OxapayService
  import AuthMiddleware
  import DepositController
  import WithdrawController
  import WebhookController
  import PaymentRoutes

  /** The state after the router has served `reqs` one after the other. */
  function Run(env: Env, verify: string -> AuthMiddleware.Verification, s: State,
               reqs: seq<PaymentRoutes.Request>): (s': State)
    ensures Extends(s, s')
    ensures Valid(s) ==> Valid(s')
    decreases |reqs|
  {
    if |reqs| == 0 then s
    else
      var s1 := PaymentRoutes.Dispatch(env, verify, s, reqs[0]).state;
      var rest := Run(env, verify, s1, reqs[1..]);
      ExtendsTransitive(s, s1, rest);
      rest
  }

  /** Requests that reach an authenticated route without an `Authorization`
      header are all turned away by the middleware and change nothing. */
  lemma {:induction false} UnauthenticatedRunChangesNothing(env: Env, verify: string -> AuthMiddleware.Verification,
                                                          s: State, reqs: seq<PaymentRoutes.Request>)
    requires forall k :: 0 <= k < |reqs| ==> PaymentRoutes.Guarded(reqs[k].call) && reqs[k].authorization.None?
    ensures Run(env, verify, s, reqs) == s
    decreases |reqs|
  {
    if |reqs| > 0 {
      assert PaymentRoutes.Dispatch(env, verify, s, reqs[0]).state == s;
      UnauthenticatedRunChangesNothing(env, verify, s, reqs[1..]);
    }
  }

  /** The middleware's `req.user` is the only account an admitted request
      can touch: every other user's balance is the same afterwards. */
  lemma {:induction false} AdmittedRequestTouchesOnlyCaller(env: Env, verify: string -> AuthMiddleware.Verification,
                                                          s: State, q: PaymentRoutes.Request)
    requires PaymentRoutes.Guarded(q.call) && AuthMiddleware.Authenticate(env, q.authorization, verify).Next?
    ensures var u := AuthMiddleware.Authenticate(env, q.authorization, verify).userId;
            var s' := PaymentRoutes.Dispatch(env, verify, s, q).state;
            forall v :: v in s.balances && v != u ==> v in s'.balances && s'.balances[v] == s.balances[v]
  {
    var u := AuthMiddleware.Authenticate(env, q.authorization, verify).userId;
    var s' := PaymentRoutes.Route(env, s, u, q.call).state;
    match q.call {
      case CreateDepositCall(amount, crypto, orderId, gateway) =>
      case DepositStatusCall(invoiceId, http) =>
      case CreateWithdrawalCall(amount, address, crypto, gateway, saveFailure) =>
      case WithdrawalStatusCall(txId, http) =>
        if WithdrawController.Owns(s, u, txId) {
          assert s.txs[txId].user == u;
        }
      case BalanceCall =>
      case HistoryCall(kind, limit, page) =>
    }
  }

  /** After a crediting confirmation, the balance route reports the owner's
      old balance plus the record's fiat amount. */
  lemma BalanceShowsConfirmation(env: Env, s: State, secret: Option<string>, b: WebhookController.WebhookBody)
    requires WebhookController.Authorized(env, secret) && WebhookController.Confirms(b.status)
    requires WebhookController.FindTarget(s, b).Some?
    requires WebhookController.CreditsRecord(s, s.txs[WebhookController.FindTarget(s, b).value])
    ensures var t := s.txs[WebhookController.FindTarget(s, b).value];
            PaymentRoutes.Balance(WebhookController.HandleWebhook(env, s, secret, b).state, t.user)
              == Response(200, BalanceOf(s.balances[t.user] + t.amountFiat, "USD"))
  {
    WebhookController.ConfirmationCredits(env, s, secret, b);
  }

  /** The state after the same webhook is delivered `n` times. */
  function Deliver(env: Env, s: State, secret: Option<string>, b: WebhookController.WebhookBody, n: nat): State
    decreases n
  {
    if n == 0 then s else Deliver(env, WebhookController.HandleWebhook(env, s, secret, b).state, secret, b, n - 1)
  }

  /** A state the delivery leaves alone stays put under any number of them. */
  lemma {:induction false} DeliverFixedPoint(env: Env, s: State, secret: Option<string>,
                                           b: WebhookController.WebhookBody, n: nat)
    requires WebhookController.HandleWebhook(env, s, secret, b).state == s
    ensures Deliver(env, s, secret, b, n) == s
    decreases n
  {
    if n > 0 {
      DeliverFixedPoint(env, s, secret, b, n - 1);
    }
  }

  /** However often the gateway redelivers a webhook, the ledger ends as
      after the first delivery: a confirmation credits at most once. */
  lemma {:induction false} RedeliveriesActOnce(env: Env, s: State, secret: Option<string>,
                                             b: WebhookController.WebhookBody, n: nat)
    requires n >= 1
    ensures Deliver(env, s, secret, b, n) == WebhookController.HandleWebhook(env, s, secret, b).state
  {
    var s1 := WebhookController.HandleWebhook(env, s, secret, b).state;
    WebhookController.RedeliveryIsIdempotent(env, s, secret, b);
    DeliverFixedPoint(env, s1, secret, b, n - 1);
  }

  /** The state after the caller polls one deposit invoice once per gateway
      outcome in `https`. No poll ever changes a balance. */
  function PollDeposit(env: Env, s: State, user: UserId, invoiceId: string, https: seq<Oxa.Outcome>): (s': State)
    ensures s'.balances == s.balances
    ensures |s'.txs| == |s.txs| && Extends(s, s')
    decreases |https|
  {
    if |https| == 0 then s
    else
      var s1 := DepositController.CheckDepositStatus(env, s, user, invoiceId, https[0]).state;
      var rest := PollDeposit(env, s1, user, invoiceId, https[1..]);
      ExtendsTransitive(s, s1, rest);
      rest
  }

  /** Once the polled invoice is `paid` or `completed`, further polls are
      answered from the store and change nothing. */
  lemma {:induction false} SettledDepositPollsChangeNothing(env: Env, s: State, user: UserId, invoiceId: string,
                                                          https: seq<Oxa.Outcome>)
    requires DepositController.FindOwnedInvoice(s, user, invoiceId).Some?
    requires DepositController.Settled(s.txs[DepositController.FindOwnedInvoice(s, user, invoiceId).value].status)
    ensures PollDeposit(env, s, user, invoiceId, https) == s
    decreases |https|
  {
    if |https| > 0 {
      assert DepositController.CheckDepositStatus(env, s, user, invoiceId, https[0]).state == s;
      SettledDepositPollsChangeNothing(env, s, user, invoiceId, https[1..]);
    }
  }

  /** The state after the caller polls one withdrawal once per gateway
      outcome in `https`. */
  function PollWithdrawal(env: Env, s: State, user: UserId, txId: TxId, https: seq<Oxa.Outcome>): (s': State)
    ensures |s'.txs| == |s.txs| && Extends(s, s')
    decreases |https|
  {
    if |https| == 0 then s
    else
      var s1 := WithdrawController.CheckWithdrawalStatus(env, s, user, txId, https[0]).state;
      var rest := PollWithdrawal(env, s1, user, txId, https[1..]);
      ExtendsTransitive(s, s1, rest);
      rest
  }

  /** Once the polled record is `completed` or `rejected`, further polls are
      answered from the store and change nothing. */
  lemma {:induction false} ClosedWithdrawalPollsChangeNothing(env: Env, s: State, user: UserId, txId: TxId,
                                                            https: seq<Oxa.Outcome>)
    requires txId < |s.txs| && WithdrawController.Closed(s.txs[txId].status)
    ensures PollWithdrawal(env, s, user, txId, https) == s
    decreases |https|
  {
    if |https| > 0 {
      assert WithdrawController.CheckWithdrawalStatus(env, s, user, txId, https[0]).state == s;
      ClosedWithdrawalPollsChangeNothing(env, s, user, txId, https[1..]);
    }
  }

  /** However many polls, a withdrawal is refunded at most once: afterwards
      the balances are either untouched, or the record went from `pending`
      to `rejected` and its owner got back exactly its amount. */
  lemma {:induction false} RefundAtMostOnce(env: Env, s: State, user: UserId, txId: TxId, https: seq<Oxa.Outcome>)
    requires txId < |s.txs|
    ensures var t := s.txs[txId];
            var s' := PollWithdrawal(env, s, user, txId, https);
            || s'.balances == s.balances
            || (&& t.status == Pending && t.user in s.balances
                && s'.txs[txId].status == Rejected
                && s'.balances == s.balances[t.user := s.balances[t.user] + t.amountFiat])
    decreases |https|
  {
    if |https| > 0 {
      var t := s.txs[txId];
      var s1 := WithdrawController.CheckWithdrawalStatus(env, s, user, txId, https[0]).state;
      var t1 := s1.txs[txId];
      assert SameIdentity(t, t1);
      if s1.balances != s.balances {
        assert WithdrawController.Owns(s, user, txId);
        assert t1.status == Rejected;
        ClosedWithdrawalPollsChangeNothing(env, s1, user, txId, https[1..]);
      } else {
        RefundAtMostOnce(env, s1, user, txId, https[1..]);
        assert t1.status == Pending ==> t.status == Pending;
      }
    }
  }
}

=== FILE: transaction.dfy ===
/** The transaction schema: the enumerations a record may hold, the record
    itself, and the validation the document store applies when a new record
    is saved (required paths, enum paths, the default status). */
module TransactionSchema {
  import opened Common

  /** The owner reference. The authentication middleware only admits truthy
      ids, so an owner is never the empty string. */
  type UserId = s: string | s != "" witness "u"

  datatype Kind = Deposit | Withdraw

  datatype Asset = TRX | USDT | BTC | ETH | BNB

  datatype Status = Pending | Paid | Completed | Rejected | Expired | Failed

  function KindName(k: Kind): string {
    match k
    case Deposit => "deposit"
    case Withdraw => "withdraw"
  }

  function AssetName(a: Asset): string {
    match a
    case TRX => "TRX"
    case USDT => "USDT"
    case BTC => "BTC"
    case ETH => "ETH"
    case BNB => "BNB"
  }

  function StatusName(s: Status): string {
    match s
    case Pending => "pending"
    case Paid => "paid"
    case Completed => "completed"
    case Rejected => "rejected"
    case Expired => "expired"
    case Failed => "failed"
  }

  /** The `type` enum: exactly "deposit" and "withdraw". */
  function ParseKind(s: string): (r: Option<Kind>)
    ensures forall k :: r == Some(k) <==> KindName(k) == s
  {
    if s == "deposit" then Some(Deposit)
    else if s == "withdraw" then Some(Withdraw)
    else None
  }

  /** The `crypto` enum: exactly the five upper-case asset names. */
  function ParseAsset(s: string): (r: Option<Asset>)
    ensures forall a :: r == Some(a) <==> AssetName(a) == s
  {
    if s == "TRX" then Some(TRX)
    else if s == "USDT" then Some(USDT)
    else if s == "BTC" then Some(BTC)
    else if s == "ETH" then Some(ETH)
    else if s == "BNB" then Some(BNB)
    else None
  }

  /** The `status` enum: exactly the six lower-case status names. */
  function ParseStatus(s: string): (r: Option<Status>)
    ensures forall st :: r == Some(st) <==> StatusName(st) == s
  {
    if s == "pending" then Some(Pending)
    else if s == "paid" then Some(Paid)
    else if s == "completed" then Some(Completed)
    else if s == "rejected" then Some(Rejected)
    else if s == "expired" then Some(Expired)
    else if s == "failed" then Some(Failed)
    else None
  }

  /** The asset named by a request's `crypto` field, compared after
      upper-casing; a missing or empty field names none. Both controllers
      accept exactly this set. */
  function AssetOfRequest(crypto: Option<string>): (r: Option<Asset>)
    ensures r.Some? ==> Truthy(crypto) && AssetName(r.value) == ToUpper(crypto.value)
    ensures Truthy(crypto) && (exists a :: AssetName(a) == ToUpper(crypto.value)) ==> r.Some?
  {
    if !Truthy(crypto) then None else ParseAsset(ToUpper(crypto.value))
  }

  /** Upper-casing is Unicode-aware, so a long s spells the S of USDT. */
  lemma LongSNamesUsdt()
    ensures AssetOfRequest(Some("u\U{017F}dt")) == Some(USDT)
  {
    assert ToUpper("u\U{017F}dt") == "USDT";
  }

  /** A stored record. `status` and `amountCrypto` are the only fields the
      handlers ever change after creation. */
  datatype Tx = Tx(
    user: UserId,
    kind: Kind,
    asset: Asset,
    amountFiat: real,
    amountCrypto: Option<real>,
    address: Option<string>,
    invoiceId: Option<string>,
    status: Status,
    txHash: Option<string>)

  /** The fields a handler passes to the model constructor, before
      validation. */
  datatype Draft = Draft(
    user: Option<string>,
    kind: Option<string>,
    crypto: Option<string>,
    amountFiat: Option<real>,
    amountCrypto: Option<real>,
    address: Option<string>,
    invoiceId: Option<string>,
    status: Option<string>,
    txHash: Option<string>)

  /** The paths the schema rejects: a required path that is missing, or an
      enum path holding a value outside its enum. `status` is optional. */
  function Violations(d: Draft): set<string> {
    (if !Truthy(d.user) then {"user"} else {})
    + (if d.kind.None? || ParseKind(d.kind.value).None? then {"type"} else {})
    + (if d.crypto.None? || ParseAsset(d.crypto.value).None? then {"crypto"} else {})
    + (if d.amountFiat.None? then {"amount_fiat"} else {})
    + (if d.status.Some? && ParseStatus(d.status.value).None? then {"status"} else {})
  }

  /** Validation on save: either the record the draft describes, with status
      `pending` when none was given, or the set of offending paths. */
  function Validate(d: Draft): (r: Result<Tx, set<string>>)
    ensures r.Err? <==> Violations(d) != {}
    ensures r.Err? ==> r.error == Violations(d)
    ensures r.Ok? ==>
              && d.user == Some(r.value.user)
              && d.kind == Some(KindName(r.value.kind))
              && d.crypto == Some(AssetName(r.value.asset))
              && d.amountFiat == Some(r.value.amountFiat)
              && d.amountCrypto == r.value.amountCrypto
              && d.address == r.value.address
              && d.invoiceId == r.value.invoiceId
              && d.txHash == r.value.txHash
              && (d.status.None? ==> r.value.status == Pending)
              && (d.status.Some? ==> d.status.value == StatusName(r.value.status))
  {
    if Violations(d) != {} then Err(Violations(d))
    else
      var status := if d.status.None? then Pending else ParseStatus(d.status.value).value;
      Ok(Tx(d.user.value, ParseKind(d.kind.value).value, ParseAsset(d.crypto.value).value,
            d.amountFiat.value, d.amountCrypto, d.address, d.invoiceId, status, d.txHash))
  }

  /** The draft that describes a stored record field by field. */
  function DraftOf(t: Tx): Draft {
    Draft(Some(t.user), Some(KindName(t.kind)), Some(AssetName(t.asset)), Some(t.amountFiat),
          t.amountCrypto, t.address, t.invoiceId, Some(StatusName(t.status)), t.txHash)
  }

  /** Every record the model can hold is one the schema accepts: validating
      its draft gives the record back. */
  lemma ValidateDraftOf(t: Tx)
    ensures Validate(DraftOf(t)) == Ok(t)
  {
    assert ParseKind(KindName(t.kind)) == Some(t.kind);
    assert ParseAsset(AssetName(t.asset)) == Some(t.asset);
    assert ParseStatus(StatusName(t.status)) == Some(t.status);
  }

  /** A draft without a status is saved as `pending`. */
  lemma DefaultStatusIsPending(d: Draft)
    requires d.status.None? && Violations(d) == {}
    ensures Validate(d).Ok? && Validate(d).value.status == Pending
  {
  }
}

=== FILE: webhook.dfy ===
/** The gateway's webhook: secret check, lookup by invoice id, a credit on
    "Paid"/"Completed" guarded by the stored status, and unconditional
    overwrites on "Expired"/"Failed". */
module WebhookController {
  import opened Common
  import opened TransactionSchema
  import opened Http
  import opened Ledger

  /** The members of the webhook body the handler reads. A missing `status`
      behaves like any unrecognised string. */
  datatype WebhookBody = WebhookBody(
    status: string,
    orderId: Option<string>,
    invoiceId: Option<string>,
    amount: Option<real>)

  /** The secret check is strict equality, so a missing header passes when
      no secret is configured either. */
  predicate Authorized(env: Env, secret: Option<string>): (ok: bool)
    ensures secret.None? ==> (ok <==> env.webhookSecret.None?)
    ensures secret.Some? ==> (ok <==> env.webhookSecret == secret)
  {
    secret == env.webhookSecret
  }

  /** One arm of the `$or` filter: an absent key matches no record. */
  predicate KeyMatches(stored: Option<string>, key: Option<string>) {
    key.Some? && stored == key
  }

  predicate MatchesBody(t: Tx, b: WebhookBody) {
    KeyMatches(t.invoiceId, b.orderId) || KeyMatches(t.invoiceId, b.invoiceId)
  }

  /** The record the webhook acts on: the first whose invoice id equals the
      body's `order_id` or `invoice_id`, whatever its kind or owner. */
  function FindTarget(s: State, b: WebhookBody): (r: Option<TxId>)
    ensures r.Some? ==> r.value < |s.txs| && MatchesBody(s.txs[r.value], b)
    ensures r.Some? ==> forall j :: 0 <= j < r.value ==> !MatchesBody(s.txs[j], b)
    ensures r.None? ==> forall j :: 0 <= j < |s.txs| ==> !MatchesBody(s.txs[j], b)
  {
    FindFirst(s.txs, t => MatchesBody(t, b))
  }

  predicate Confirms(status: string) {
    status == "Paid" || status == "Completed"
  }

  /** Whether a confirming delivery credits the record: its owner exists and
      its stored status is neither `paid` nor `completed`. The record's kind
      is never looked at. */
  predicate CreditsRecord(s: State, t: Tx) {
    t.user in s.balances && t.status != Paid && t.status != Completed
  }

  /** The record after a crediting delivery: `paid`, and the delivered
      amount, when truthy, replaces the crypto amount. */
  function Confirmed(t: Tx, b: WebhookBody): (t': Tx)
    ensures SameIdentity(t, t') && t'.status == Paid
    ensures t'.amountCrypto == (if TruthyNum(b.amount) then b.amount else t.amountCrypto)
  {
    t.(status := Paid, amountCrypto := OrNum(b.amount, t.amountCrypto))
  }

  /** The effect of an authorised delivery on the record it found. */
  function Apply(s: State, i: TxId, b: WebhookBody): (s': State)
    requires i < |s.txs|
    ensures Extends(s, s') && |s'.txs| == |s.txs|
    ensures Confirms(b.status) && CreditsRecord(s, s.txs[i]) ==>
              && s'.txs == s.txs[i := Confirmed(s.txs[i], b)]
              && s'.balances == s.balances[s.txs[i].user := s.balances[s.txs[i].user] + s.txs[i].amountFiat]
    ensures Confirms(b.status) && !CreditsRecord(s, s.txs[i]) ==> s' == s
    ensures b.status == "Expired" ==> s' == s.(txs := s.txs[i := s.txs[i].(status := Expired)])
    ensures b.status == "Failed" ==> s' == s.(txs := s.txs[i := s.txs[i].(status := Failed)])
    ensures !Confirms(b.status) && b.status != "Expired" && b.status != "Failed" ==> s' == s
  {
    var t := s.txs[i];
    if Confirms(b.status) then
      if CreditsRecord(s, t) then Credit(Put(s, i, Confirmed(t, b)), t.user, t.amountFiat) else s
    else if b.status == "Expired" then Put(s, i, t.(status := Expired))
    else if b.status == "Failed" then Put(s, i, t.(status := Failed))
    else s
  }

  /** `oxapayWebhook`. */
  function HandleWebhook(env: Env, s: State, secret: Option<string>, b: WebhookBody): (r: Step)
    ensures !Authorized(env, secret) ==> r == Step(s, Reject(403, WebhookForbidden))
    ensures Authorized(env, secret) ==> r.response == Response(200, Ack)
    ensures Extends(s, r.state) && |r.state.txs| == |s.txs|
    ensures Authorized(env, secret) && FindTarget(s, b).None? ==> r.state == s
    ensures Valid(s) ==> Valid(r.state)
  {
    if !Authorized(env, secret) then Step(s, Reject(403, WebhookForbidden))
    else match FindTarget(s, b)
      case None => Step(s, Response(200, Ack))
      case Some(i) => Step(Apply(s, i, b), Response(200, Ack))
  }

  /** A confirming delivery for a record not yet confirmed, whose owner
      exists, marks it `paid` and credits the owner with the record's stored
      fiat amount; the delivered amount only replaces the crypto amount. No
      other balance or record changes. */
  lemma ConfirmationCredits(env: Env, s: State, secret: Option<string>, b: WebhookBody)
    requires Authorized(env, secret) && Confirms(b.status)
    requires FindTarget(s, b).Some? && CreditsRecord(s, s.txs[FindTarget(s, b).value])
    ensures var i := FindTarget(s, b).value; var t := s.txs[i];
            var s' := HandleWebhook(env, s, secret, b).state;
            && s'.txs == s.txs[i := Confirmed(t, b)]
            && s'.balances == s.balances[t.user := s.balances[t.user] + t.amountFiat]
  {
  }

  /** A confirming delivery for a record already `paid` or `completed`, or
      whose owner is gone, changes nothing. */
  lemma ConfirmationOfSettledIsNoop(env: Env, s: State, secret: Option<string>, b: WebhookBody)
    requires Authorized(env, secret) && Confirms(b.status)
    requires FindTarget(s, b).Some? && !CreditsRecord(s, s.txs[FindTarget(s, b).value])
    ensures HandleWebhook(env, s, secret, b).state == s
  {
  }

  /** "Expired" and "Failed" overwrite whatever status is stored, `paid`
      included, and never touch a balance. */
  lemma ExpiryOverwrites(env: Env, s: State, secret: Option<string>, b: WebhookBody)
    requires Authorized(env, secret) && b.status in {"Expired", "Failed"} && FindTarget(s, b).Some?
    ensures var i := FindTarget(s, b).value;
            var s' := HandleWebhook(env, s, secret, b).state;
            && s'.balances == s.balances
            && s'.txs == s.txs[i := s.txs[i].(status := if b.status == "Expired" then Expired else Failed)]
  {
  }

  /** Any other status string is acknowledged and changes nothing. */
  lemma UnknownStatusIsNoop(env: Env, s: State, secret: Option<string>, b: WebhookBody)
    requires !Confirms(b.status) && b.status != "Expired" && b.status != "Failed"
    ensures HandleWebhook(env, s, secret, b).state == s
  {
  }

  /** Delivering the same webhook twice has the effect of delivering it
      once: in particular a redelivered confirmation does not credit again. */
  lemma RedeliveryIsIdempotent(env: Env, s: State, secret: Option<string>, b: WebhookBody)
    ensures var s1 := HandleWebhook(env, s, secret, b).state;
            HandleWebhook(env, s1, secret, b).state == s1
  {
    var s1 := HandleWebhook(env, s, secret, b).state;
    if Authorized(env, secret) && FindTarget(s, b).Some? {
      var i := FindTarget(s, b).value;
      SameTargetAfterApply(s, s1, b, i);
      var t1 := s1.txs[i];
      if Confirms(b.status) {
        if CreditsRecord(s, s.txs[i]) {
          assert t1.status == Paid;
        }
        assert !CreditsRecord(s1, t1) || s1 == s;
      } else if b.status == "Expired" {
        assert s1.txs[i := t1.(status := Expired)] == s1.txs;
      } else if b.status == "Failed" {
        assert s1.txs[i := t1.(status := Failed)] == s1.txs;
      }
    }
  }

  /** The lookup depends only on invoice ids, which no delivery changes, so
      it finds the same record again. */
  lemma SameTargetAfterApply(s: State, s1: State, b: WebhookBody, i: TxId)
    requires FindTarget(s, b) == Some(i)
    requires Extends(s, s1) && |s1.txs| == |s.txs|
    ensures FindTarget(s1, b) == Some(i)
  {
    assert forall j :: 0 <= j < |s.txs| ==> (MatchesBody(s.txs[j], b) <==> MatchesBody(s1.txs[j], b));
  }
}

=== FILE: withdraw.dfy ===
/** The withdrawal controller: address rules, the hold-then-payout protocol
    with its refund, and polling the gateway for the payout's status. */
module WithdrawController {
  import opened Common
  import opened TransactionSchema
  import opened Http
  import opened Ledger
  import Oxa = OxapayService

  /** The smallest withdrawal, in US dollars. */
  const MinWithdrawal: real := 0.5

  /** `addressValidators`: the address format each asset accepts. Lengths
      are JavaScript lengths, in UTF-16 code units. */
  predicate AddressValid(asset: Asset, addr: string): (ok: bool)
    ensures ok ==> 26 <= Utf16Length(addr) <= 62 && addr[0] in {'T', '1', '3', 'b', '0'}
    ensures ok && asset in {TRX, USDT} ==> Utf16Length(addr) == 34 && addr[0] == 'T'
    ensures ok && asset in {ETH, BNB} ==> Utf16Length(addr) == 42 && addr[..2] == "0x"
  {
    match asset
    case TRX => StartsWith(addr, "T") && Utf16Length(addr) == 34
    case USDT => StartsWith(addr, "T") && Utf16Length(addr) == 34
    case BTC => (StartsWith(addr, "1") || StartsWith(addr, "3") || StartsWith(addr, "bc1")) && 26 <= Utf16Length(addr) <= 62
    case ETH => StartsWith(addr, "0x") && Utf16Length(addr) == 42
    case BNB => StartsWith(addr, "0x") && Utf16Length(addr) == 42
  }

  /** The same rules, stated character by character. */
  predicate AddressShape(asset: Asset, addr: string) {
    match asset
    case TRX => Utf16Length(addr) == 34 && addr[0] == 'T'
    case USDT => Utf16Length(addr) == 34 && addr[0] == 'T'
    case BTC => 26 <= Utf16Length(addr) <= 62 && (addr[0] == '1' || addr[0] == '3' || addr[..3] == "bc1")
    case ETH => Utf16Length(addr) == 42 && addr[..2] == "0x"
    case BNB => Utf16Length(addr) == 42 && addr[..2] == "0x"
  }

  /** TRX and USDT share the TRC-20 rule (a 'T' and 34 characters), ETH and
      BNB share the EVM rule ("0x" and 42 characters), and BTC takes a
      legacy, script or bech32 prefix and 26 to 62 characters. */
  lemma AddressRules(asset: Asset, addr: string)
    ensures AddressValid(asset, addr) <==> AddressShape(asset, addr)
    ensures AddressValid(TRX, addr) <==> AddressValid(USDT, addr)
    ensures AddressValid(ETH, addr) <==> AddressValid(BNB, addr)
  {
    if |addr| >= 1 {
      assert StartsWith(addr, "T") <==> addr[0] == 'T';
      assert StartsWith(addr, "1") <==> addr[0] == '1';
      assert StartsWith(addr, "3") <==> addr[0] == '3';
    }
  }

  /** An address of 34 characters whose last one is astral is 35 code units
      long in JavaScript, so it is refused. */
  lemma AstralCharacterCountsTwice(body: string)
    requires |body| == 32 && forall i :: 0 <= i < |body| ==> !Astral(body[i])
    ensures var addr := "T" + body + "\U{1F600}";
            |addr| == 34 && Utf16Length(addr) == 35 && !AddressValid(TRX, addr)
  {
    var addr := "T" + body + "\U{1F600}";
    var init := addr[..|addr| - 1];
    assert init == "T" + body;
    assert forall i :: 0 <= i < |init| ==> !Astral(init[i]);
  }

  /** The request checks, in the order the controller runs them. */
  function CheckRequest(amount: Option<real>, address: Option<string>, crypto: Option<string>): (r: Result<(real, Asset, string), Reason>)
    ensures r.Ok? <==> && ValidAmount(amount) && AssetOfRequest(crypto).Some? && Truthy(address)
                       && AddressValid(AssetOfRequest(crypto).value, address.value)
                       && amount.value >= MinWithdrawal
    ensures r.Ok? ==> r.value == (amount.value, AssetOfRequest(crypto).value, address.value)
    ensures !ValidAmount(amount) ==> r == Err(InvalidAmount)
    ensures ValidAmount(amount) && AssetOfRequest(crypto).None? ==> r == Err(InvalidCrypto)
    ensures ValidAmount(amount) && AssetOfRequest(crypto).Some? && !Truthy(address) ==> r == Err(AddressRequired)
    ensures ValidAmount(amount) && AssetOfRequest(crypto).Some? && Truthy(address)
            && !AddressValid(AssetOfRequest(crypto).value, address.value) ==>
              r == Err(InvalidAddressFormat(AssetOfRequest(crypto).value))
    ensures ValidAmount(amount) && AssetOfRequest(crypto).Some? && Truthy(address)
            && AddressValid(AssetOfRequest(crypto).value, address.value) && amount.value < MinWithdrawal ==>
              r == Err(BelowMinimum(MinWithdrawal))
  {
    if !ValidAmount(amount) then Err(InvalidAmount)
    else match AssetOfRequest(crypto)
      case None => Err(InvalidCrypto)
      case Some(asset) =>
        if !Truthy(address) then Err(AddressRequired)
        else if !AddressValid(asset, address.value) then Err(InvalidAddressFormat(asset))
        else if amount.value < MinWithdrawal then Err(BelowMinimum(MinWithdrawal))
        else Ok((amount.value, asset, address.value))
  }

  /** The hold: the amount leaves the balance before the gateway is called,
      and only when the balance covers it. */
  function Hold(s: State, u: UserId, amount: real): (s': State)
    requires u in s.balances && s.balances[u] >= amount
    ensures s'.txs == s.txs && s'.balances.Keys == s.balances.Keys
    ensures s'.balances[u] == s.balances[u] - amount && s'.balances[u] >= 0.0
    ensures forall v :: v in s.balances && v != u ==> s'.balances[v] == s.balances[v]
  {
    Credit(s, u, -amount)
  }

  /** The refund: the same amount goes back to the same user. */
  function Refund(s: State, u: UserId, amount: real): (s': State)
    requires u in s.balances
    ensures s'.txs == s.txs && s'.balances.Keys == s.balances.Keys
    ensures s'.balances[u] == s.balances[u] + amount
    ensures forall v :: v in s.balances && v != u ==> s'.balances[v] == s.balances[v]
  {
    Credit(s, u, amount)
  }

  /** A refund restores exactly the state the hold started from. */
  lemma RefundUndoesHold(s: State, u: UserId, amount: real)
    requires u in s.balances && s.balances[u] >= amount
    ensures Refund(Hold(s, u, amount), u, amount) == s
  {
    CreditUndoesDebit(s, u, amount);
  }

  /** The record a successful payout saves. */
  function WithdrawalDraft(user: UserId, amount: real, asset: Asset, address: string, payout: Oxa.Body): Draft {
    Draft(Some(user), Some("withdraw"), Some(AssetName(asset)), Some(amount), None, Some(address),
          Or(payout.transId, payout.orderId), Some("pending"), payout.txid)
  }

  /** The record the schema accepts for the draft: a withdrawal draft
      always validates, since every field it fills is one the schema allows. */
  function WithdrawalRecord(user: UserId, amount: real, asset: Asset, address: string, payout: Oxa.Body): (t: Tx)
    ensures Validate(WithdrawalDraft(user, amount, asset, address, payout)) == Ok(t)
    ensures t == Tx(user, Withdraw, asset, amount, None, Some(address), Or(payout.transId, payout.orderId),
                    Pending, payout.txid)
  {
    var t := Tx(user, Withdraw, asset, amount, None, Some(address), Or(payout.transId, payout.orderId),
                Pending, payout.txid);
    assert DraftOf(t) == WithdrawalDraft(user, amount, asset, address, payout);
    ValidateDraftOf(t);
    t
  }

  /** The payout request an accepted, covered withdrawal sends: the
      requested amount, to the requested address, in the requested asset
      on that asset's network. */
  function PayoutSent(amount: real, asset: Asset, address: string): (q: Oxa.PayoutRequest)
    ensures q.amount == amount && q.address == Some(address)
    ensures ParseAsset(q.currency) == Some(asset)
    ensures q.network == Oxa.Network(AssetName(asset)) && q.description.None?
  {
    assert ParseAsset(AssetName(asset)) == Some(asset);
    Oxa.PayoutRequestFor(amount, AssetName(asset), Some(address), Oxa.NoPayoutOptions)
  }

  /** What the service makes of the gateway's answer to that request. */
  function PayoutReply(env: Env, amount: Option<real>, address: Option<string>, crypto: Option<string>,
                       gateway: Oxa.PayoutRequest -> Oxa.Outcome): Result<Oxa.Body, Oxa.ServiceError>
    requires CheckRequest(amount, address, crypto).Ok?
  {
    Oxa.Call(env, Oxa.SendPayout, gateway(PayoutSent(amount.value, AssetOfRequest(crypto).value, address.value)))
  }

  /** `createWithdrawal`. `gateway` answers the payout request the controller
      sends and `saveFailure` is the error, if any, thrown by saving the new
      record. */
  function CreateWithdrawal(env: Env, s: State, user: UserId, amount: Option<real>, address: Option<string>,
                            crypto: Option<string>, gateway: Oxa.PayoutRequest -> Oxa.Outcome,
                            saveFailure: Option<string>): (r: Step)
    ensures r.response.code != 200 ==> r.state == s
    ensures r.response.code == 200 <==>
              && CheckRequest(amount, address, crypto).Ok?
              && user in s.balances && s.balances[user] >= amount.value
              && PayoutReply(env, amount, address, crypto, gateway).Ok?
              && saveFailure.None?
    ensures CheckRequest(amount, address, crypto).Err? ==>
              r.response == Reject(400, CheckRequest(amount, address, crypto).error)
    ensures CheckRequest(amount, address, crypto).Ok? && user !in s.balances ==>
              r.response == Reject(404, UserNotFound)
    ensures CheckRequest(amount, address, crypto).Ok? && user in s.balances && s.balances[user] < amount.value ==>
              r.response == Reject(400, InsufficientFunds(s.balances[user]))
    ensures CheckRequest(amount, address, crypto).Ok? && user in s.balances && s.balances[user] >= amount.value
            && PayoutReply(env, amount, address, crypto, gateway).Err? ==>
              r.response == Reject(500, Internal(Oxa.ErrorText(PayoutReply(env, amount, address, crypto, gateway).error)))
    ensures CheckRequest(amount, address, crypto).Ok? && user in s.balances && s.balances[user] >= amount.value
            && PayoutReply(env, amount, address, crypto, gateway).Ok? && saveFailure.Some? ==>
              r.response == Reject(500, Internal(saveFailure.value))
    ensures r.response.code == 200 ==>
              var payout := PayoutReply(env, amount, address, crypto, gateway).value;
              && r.state.balances == s.balances[user := s.balances[user] - amount.value]
              && r.state.balances[user] >= 0.0
              && |r.state.txs| == |s.txs| + 1
              && r.state.txs[..|s.txs|] == s.txs
              && r.state.txs[|s.txs|] == Tx(user, Withdraw, AssetOfRequest(crypto).value, amount.value, None,
                                            address, Or(payout.transId, payout.orderId), Pending, payout.txid)
              && r.response.payload == WithdrawalCreated(|s.txs|, payout.transId, amount.value,
                                                         AssetOfRequest(crypto).value, address.value, Pending)
    ensures Valid(s) ==> Valid(r.state)
  {
    match CheckRequest(amount, address, crypto)
    case Err(reason) => Step(s, Reject(400, reason))
    case Ok((value, asset, addr)) =>
      if user !in s.balances then Step(s, Reject(404, UserNotFound))
      else if s.balances[user] < value then Step(s, Reject(400, InsufficientFunds(s.balances[user])))
      else
        var held := Hold(s, user, value);
        RefundUndoesHold(s, user, value);
        match PayoutReply(env, amount, address, crypto, gateway)
        case Err(e) => Step(Refund(held, user, value), Reject(500, Internal(Oxa.ErrorText(e))))
        case Ok(payout) =>
          if saveFailure.Some? then Step(Refund(held, user, value), Reject(500, Internal(saveFailure.value)))
          else
            var s' := Insert(held, WithdrawalRecord(user, value, asset, addr, payout));
            assert s'.txs[..|s.txs|] == s.txs;
            Step(s', Response(200, WithdrawalCreated(|s.txs|, payout.transId, value, asset, addr, Pending)))
  }

  /** A poll finds a record by id, and only among the caller's own. */
  predicate Owns(s: State, user: UserId, txId: TxId) {
    txId < |s.txs| && s.txs[txId].user == user
  }

  /** Statuses the poll answers from the store without asking the gateway. */
  predicate Closed(st: Status) {
    st == Completed || st == Rejected
  }

  predicate Rejects(observed: Option<string>) {
    observed == Some("Rejected") || observed == Some("Failed")
  }

  /** The payout status table: a recognised gateway status names the new
      status, anything else keeps the current one. */
  function PayoutTransition(observed: Option<string>, current: Status): (r: Status)
    ensures r != current ==> r in {Completed, Rejected}
    ensures observed in {Some("Completed"), Some("Success")} ==> r == Completed
    ensures Rejects(observed) ==> r == Rejected
    ensures observed !in {Some("Completed"), Some("Success"), Some("Rejected"), Some("Failed")} ==> r == current
  {
    if observed == Some("Completed") || observed == Some("Success") then Completed
    else if Rejects(observed) then Rejected
    else current
  }

  /** Whether a poll that got `observed` refunds the record: a rejection
      seen while the stored status is still `pending`, with an existing
      owner. */
  predicate RefundsOn(s: State, t: Tx, observed: Option<string>) {
    Rejects(observed) && t.status == Pending && t.user in s.balances
  }

  function StateOf(t: Tx, st: Status): Payload {
    WithdrawalState(st, t.amountFiat, t.asset)
  }

  /** `checkWithdrawalStatus`: `http` is the outcome of the status request. */
  function CheckWithdrawalStatus(env: Env, s: State, user: UserId, txId: TxId, http: Oxa.Outcome): (r: Step)
    ensures Extends(s, r.state) && |r.state.txs| == |s.txs|
    ensures !Owns(s, user, txId) ==> r == Step(s, Reject(404, TransactionNotFound))
    ensures Owns(s, user, txId) ==>
              var t := s.txs[txId];
              var call := Oxa.Call(env, Oxa.CheckPayoutStatus, http);
              && (Closed(t.status) || !Truthy(t.invoiceId) || call.Err? ==>
                    r == Step(s, Response(200, StateOf(t, t.status))))
              && (!Closed(t.status) && Truthy(t.invoiceId) && call.Ok? ==>
                    var st := PayoutTransition(call.value.status, t.status);
                    && r.state.txs == s.txs[txId := t.(status := st)]
                    && r.state.balances == (if RefundsOn(s, t, call.value.status)
                                            then s.balances[t.user := s.balances[t.user] + t.amountFiat]
                                            else s.balances)
                    && r.response == Response(200, StateOf(t, st)))
    ensures Valid(s) ==> Valid(r.state)
  {
    if !Owns(s, user, txId) then Step(s, Reject(404, TransactionNotFound))
    else
      var t := s.txs[txId];
      if Closed(t.status) || !Truthy(t.invoiceId) then Step(s, Response(200, StateOf(t, t.status)))
      else match Oxa.Call(env, Oxa.CheckPayoutStatus, http)
        case Err(_) => Step(s, Response(200, StateOf(t, t.status)))
        case Ok(body) =>
          var st := PayoutTransition(body.status, t.status);
          var s1 := if RefundsOn(s, t, body.status) then Refund(s, t.user, t.amountFiat) else s;
          var s2 := if st != t.status then Put(s1, txId, t.(status := st)) else s1;
          assert st == t.status ==> s.txs[txId := t.(status := st)] == s.txs;
          Step(s2, Response(200, StateOf(t, st)))
  }
}
